=== FILE: README.md ===
# inline_reference — a Dafny model of the reference-resolution core

`inline_reference` is a Sphinx extension. It adds inline roles:
- `mref` makes mutual references, which are paired links that point at each other.
- `target` makes loose targets, which are found by signature instead of by anchor id.
- `backlink` makes backlink targets, which collect a link back to every reference that points at them.

Each role's text uses the shorthand `Display text<signature>`. During reading, each role registers its signature in the `iref` domain. That domain keeps a single list of `(name, dispname, type, docname, anchor, priority)` tuples. Later, `resolve_xref` turns a reference into a link to the newest visible tuple with that signature.

Once a doctree is resolved, two handlers rewrite it:
- `process_mutual_reference_nodes` wires the first two uses of each mutual signature to each other.
- `process_backlink_nodes` appends the id of every `id_reference` to the backlink node of the same doctree that it points at.

HTML and LaTeX visitors then emit the anchors. `LooseRefIndex.generate` builds the "Loose Reference Index" from the domain's list.

The model is pure Dafny: datatypes and functions, plus a few methods with loops.
- A doctree is the sequence of its nodes in document order, so `findall(cls)` is a filter on `Node.kind`.
- Everything the host supplies becomes a parameter:
  - `builder.get_relative_uri` is `RelativeUri`;
  - `env.new_serialno()` is `serial`;
  - `self.idescape` is `Escape`;
  - `self.starttag` is `StartTag`;
  - `self.curfilestack[-1]` is `curfile`;
  - `self.env.docname` is `docname`.
- Warnings are returned as lists instead of being passed to `warnings.warn`.

Modules, leaf first:
- `Outcomes`: `Option` and `Result`.
- `Strings`: counting, splitting, joining, `str(int)`, ASCII lower-casing.
- `Order`: code-point order and a stable `sorted(..., key=...)`.
- `Shorthand`: the role text splitter.
- `Nodes`: the four node classes and their attributes.
- `Registry`: the domain list and its two `add_*` methods.
- `Roles`: `MutualReference.run` and `Target.run`.
- `Xref`: `make_id_refnode` and `resolve_xref`.
- `Mutual`: `process_mutual_reference_nodes`.
- `Backlinks`: `process_backlink_nodes`.
- `Pipeline`: both handlers in the order they are connected, plus the facts that join the passes together.
- `Render`: the HTML and LaTeX visit and depart functions.
- `Index`: `LooseRefIndex.generate`.

The code behaves as follows where a reader might expect otherwise, and the model follows it:
- The splitter removes every `>`, not only a trailing one. It also fails unless there is exactly one `<`, because the tuple unpacking needs exactly two parts.
- Mutual references have no per-signature counter. Every use of a signature gets the anchor `mutual-<sig>`. The first two uses in one doctree become `mutual-<sig>-1` and `mutual-<sig>-2`.
- Pairing happens per doctree and is never global. Under the HTML and text builders a doctree is one document. The LaTeX builder resolves one doctree assembled from all documents, so there pairing spans documents.
- A group with more than two uses produces a warning, but its first two nodes are still paired. They are not left unlinked.
- Backlink occurrences have no "consumed" flag. Running the backlink pass again on its own output adds every backref a second time (`Backlinks.SecondRunDuplicatesBackrefs`).
- The last registration wins, because `resolve_xref` takes `match[-1]`. Mutual tuples are in the same list but can never be matched.
- A backlink collects only the references in its own doctree, because the backlink pass runs once per doctree. Under the HTML and text builders a reference from another document never reaches it. Under the LaTeX builder the assembled doctree holds every document, so backlink collection spans documents.
- A reference into another document is looked up in its own doctree by the fragment of its `refuri`. If that doctree has a backlink with the same id, the reference is filed under that local backlink (`Backlinks.ForeignReferenceAttachesLocally`). If it has none, the code as written aborts the build (see Findings).

## Model

| member | source | states |
|---|---|---|
| Shorthand.SplitShorthand | inline_reference/inline_reference.py:92 | The split succeeds exactly when the text has one `<`. Neither part contains `<` or `>`. The two parts joined by `<` give back the text with every `>` removed. |
| Shorthand.ShorthandRoundTrip | inline_reference/inline_reference.py:92 | Splitting `display + "<" + signature` gives back the display text and the signature, provided neither contains `<` or `>`. |
| Registry.AddMutualReference | inline_reference/inline_reference.py:313-328 | The old list stays a prefix and exactly one tuple is appended. The tuple has type `mutual`, the signature as dispname and the current docname. The returned anchor is `mutual-<sig>` and is stored in that tuple. |
| Registry.AddReferenceTarget | inline_reference/inline_reference.py:330-345 | The old list stays a prefix and exactly one tuple is appended. The tuple has the role's code as its type, and the anchor returned is `<code>-<sig>`. |
| Registry.AnchorsIdentifyRoleAndSignature | inline_reference/inline_reference.py:313-345 | Two anchors built from the codes `mutual`, `looseref` and `backlink` are equal only when both the code and the signature are equal. |
| Roles.MutualReferenceRun | inline_reference/inline_reference.py:90-98 | The role fails exactly when the shorthand does not split. When it succeeds, it registers one `mutual` tuple and returns a `mutual_ref` node. That node's only id is the tuple's anchor, its text and title are the display text, and it has no link. |
| Roles.TargetRun | inline_reference/inline_reference.py:206-214 | The role fails exactly when the shorthand does not split. When it succeeds, it registers one tuple with the role's code and returns a node of the role's class. That node's `refid` and only id are the tuple's anchor, and its text and title are the display text. |
| Xref.MakeLinkNode | inline_reference/inline_reference.py:26-48 | The node has `refid` exactly when both documents are the same and the target id is non-empty; otherwise it has `refuri`, and never both. The `refid` is the target id. The `refuri` is the relative URI followed by `#id` when there is an id, and the bare relative URI when there is none. `reftitle` is present exactly when the title is non-empty, and then equals it. When the target id has no `#`, the link leads back to it, as a `refid` or as the fragment of the `refuri`. |
| Xref.MakeIdRefnode | inline_reference/inline_reference.py:26-48 | The node `resolve_xref` builds for a backlink target: an `id_reference` with no ids, the child as text, and exactly the `refid`, `refuri` and `reftitle` that `MakeLinkNode` gives. |
| Xref.FragmentAfterHash | inline_reference/inline_reference.py:416 | `split('#')[-1]` applied to `uri#t` gives back `t` when `t` has no `#`. |
| Xref.Winner | inline_reference/inline_reference.py:287-298 | The reference definition of the winner: the latest tuple that has the signature and is not `mutual`. It is absent exactly when no such tuple exists. |
| Xref.LastMatchIsWinner | inline_reference/inline_reference.py:287-298 | The match list is empty exactly when there is no winner. Otherwise `match[-1]` is the winning tuple. |
| Xref.ResolveXref | inline_reference/inline_reference.py:286-311 | Resolution fails exactly when no visible tuple has the signature. Otherwise it links to the winner. A `backlink` winner gives an `id_reference` whose ids are `[anchor-ref<serial>]`. Any other winner gives a plain reference with no ids. `refid` equals the anchor and is present exactly for a same-document target. Otherwise the node has a `refuri`, never both: the relative URI to the target's document followed by `#anchor`, or the bare URI when the anchor is empty. `reftitle` is the anchor when the anchor is non-empty and absent otherwise. |
| Xref.ResolveFindsNewestTarget | inline_reference/inline_reference.py:286-345 | Once a target is registered, its signature resolves to that target, for every signature. This holds whatever came before it and whatever is registered after it under other signatures or as mutual references. The node's class follows the role. The link is a `refid` exactly for a same-document lookup, and that `refid` is the new anchor. When the signature has no `#`, the link leads to the new anchor either way. |
| Xref.ResolveIgnoresInvisible | inline_reference/inline_reference.py:287-298 | Appending any tuples that a lookup of `target` cannot see leaves the resolution of `target` unchanged. Such tuples are mutual references or tuples for other signatures. |
| Xref.ResolveIgnoresMutual | inline_reference/inline_reference.py:287-291 | Any run of mutual-reference registrations leaves the resolution of every signature unchanged. |
| Mutual.GroupMutualNodes | inline_reference/inline_reference.py:363-368 | The `paired_nodes` dict has one key per distinct first id, in order of first appearance. Each key's list is every `mutual_ref` with that first id, in document order. |
| Mutual.KeysDistinct | inline_reference/inline_reference.py:363-368 | No key of the dict appears twice. |
| Mutual.KeysComplete | inline_reference/inline_reference.py:363-368 | A key is in the dict exactly when some `mutual_ref` has it as its first id. |
| Mutual.ProcessMutualReferenceNodes | inline_reference/inline_reference.py:348-388 | The nodes after the pass are, position by position, the independently defined `PairedNode`. Each group with more than two uses, or fewer than two, gets one warning, in key order; a group of exactly two gets none. |
| Mutual.PairedNodesLinkEachOther | inline_reference/inline_reference.py:379-388 | In a group of two or more, the first two nodes are renamed `<id>-1` and `<id>-2`. Each node's `refid` and newly appended backref is the other's new id. All their other ids are kept. |
| Mutual.PairedNodeChangesOnlyPairs | inline_reference/inline_reference.py:370-388 | A node that the pass changes is one of the first two members of a group of at least two. Nodes that are alone, and third or later uses, stay as they were. |
| Backlinks.LastBacklink | inline_reference/inline_reference.py:407-409 | The dict entry for an id is the last `backlink` node carrying it, because later nodes overwrite earlier ones. The entry is absent exactly when no `backlink` node carries that id. |
| Backlinks.BuildBacklinkMap | inline_reference/inline_reference.py:407-409 | The loop builds a map whose keys are exactly the ids that some `backlink` node carries first. Each key maps to that last node. |
| Backlinks.FindTarget | inline_reference/inline_reference.py:412-416 | The two nested lookups, first by `refid` and then by the fragment of `refuri`, find exactly the node the reference definition `Target` names. |
| Backlinks.ProcessBacklinkNodes | inline_reference/inline_reference.py:391-422 | Corrected pass. Every node ends up as its original with the ids of all incoming references appended, in document order. The warnings are exactly the references that point at no backlink, in document order. |
| Backlinks.TargetIsWinningBacklink | inline_reference/inline_reference.py:407-416 | A reference always lands on a `backlink` node that wins the dict lookup for its own first id. |
| Backlinks.OnlyWinningBacklinkGains | inline_reference/inline_reference.py:407-422 | Only a `backlink` node that wins the lookup for its own id gains backrefs. A node shadowed by a later node with the same id gains none. |
| Backlinks.EveryReferenceCountedOnce | inline_reference/inline_reference.py:411-422 | Every `id_reference` is either attached to exactly one backlink or reported once, never both. The backrefs added plus the warnings equal the number of references. |
| Backlinks.TargetReadsLinksOnly | inline_reference/inline_reference.py:412-416 | Where a reference lands depends only on its `refid` and `refuri`. |
| Backlinks.AggregateKeepsLinks | inline_reference/inline_reference.py:422 | The pass only appends backrefs, so every node's class, ids and links are unchanged. |
| Backlinks.SecondRunDuplicatesBackrefs | inline_reference/inline_reference.py:411-422 | There is no consumed flag. A second run over the pass's own output attaches every incoming id again. |
| Backlinks.ProcessBacklinkNodesAsWritten | inline_reference/inline_reference.py:407-422 | Pass as written, with its nested lookups and the read of `refid` in the inner handler. It raises `KeyError('refid')` exactly when some reference reaches no backlink and has no `refid`. Otherwise the nodes are those of the corrected pass, with one warning per reference that reaches no backlink, named by its `refid`. |
| Backlinks.ForeignReferenceAborts | inline_reference/inline_reference.py:413-419 | A reference that has only a `refuri`, and whose fragment names no backlink in this doctree, makes the written pass raise. |
| Backlinks.ForeignReferenceAttachesLocally | inline_reference/inline_reference.py:413-418 | A reference that has only a `refuri` of the form `uri#anchor`, where this doctree has a backlink with id `anchor`, does not make the written pass raise. When the pass succeeds, the reference's id is among that local backlink's backrefs, whatever document the `refuri` names. |
| Backlinks.CrossDocumentReferenceAborts | inline_reference/inline_reference.py:413-419 | A concrete doctree makes the written pass raise. It holds a single reference to `other.html#backlink-t1`. |
| Pipeline.PairingKeepsLinks | inline_reference/inline_reference.py:379-388 | The mutual pass changes only `mutual_ref` nodes, so every node the backlink pass reads is unchanged. |
| Pipeline.NoIncomingUnlessBacklink | inline_reference/inline_reference.py:407-422 | Only `backlink` nodes receive backrefs. |
| Pipeline.PassesCompose | inline_reference/inline_reference.py:446-447 | Run after pairing, the backlink pass leaves each `mutual_ref` node as pairing left it. Every other node comes out as the backlink pass would leave it on the original doctree. |
| Pipeline.ResolveDoctree | inline_reference/inline_reference.py:446-447 | The two `doctree-resolved` handlers in the order they are connected, with the corrected backlink pass. `mutual_ref` nodes end up paired. Every other node ends up with exactly the backrefs of the references that reach it. The two warning lists are those of the separate passes. |
| Pipeline.ResolveDoctreeAsWritten | inline_reference/inline_reference.py:446-447 | The same two handlers with the backlink pass as written. The build raises exactly when the original doctree holds a reference that reaches no backlink and has no `refid`. A reference into another document is such a reference whenever its fragment names no backlink in this doctree. Otherwise the nodes are those of `ResolveDoctree`, and the warnings name each dangling reference by its `refid`. |
| Pipeline.ResolvedReferenceAttaches | inline_reference/inline_reference.py:411-422 | Suppose a reference was resolved to a `backlink` target whose anchor names a backlink node in this doctree. Then that reference attaches to that node, whether it links by `refid` or by the fragment of its `refuri`. |
| Pipeline.ReferenceReachesBacklink | inline_reference/inline_reference.py:413-422 | Take a reference resolved to a `backlink` target whose anchor names a backlink node of the doctree. After the backlink pass, that node's backrefs include the reference's own id `anchor-ref<serial>`. |
| Pipeline.BacklinkRoundTrip | inline_reference/inline_reference.py:300-307 | Register a `backlink` target, then any registrations its lookup cannot see, then resolve its signature from the same document. The result is an `id_reference` whose `refid` is the new anchor, with no `refuri`, and whose only id is `anchor-ref<serial>`. |
| Render.HtmlMarkersAt | inline_reference/inline_reference.py:159 | There is one marker per backref, and marker `i` links to `backrefs[i]` and shows `i`. |
| Render.DepartBacklinkHtmlMarkers | inline_reference/inline_reference.py:152-160 | For n > 1 backrefs the output holds exactly 4n `<` and n-1 commas, provided no backref contains `<` or `,`. The i-th marker is the one for `backrefs[i]`. |
| Render.DepartBacklinkHtmlLeavesAnchorOpen | inline_reference/inline_reference.py:140-160 | As written, whenever there is not exactly one backref, the depart does not begin with the `</a>` the visit needs. |
| Render.DepartBacklinkHtmlClosed | inline_reference/inline_reference.py:152-160 | Corrected depart. It always closes the visit's anchor first, then emits what the written depart emits for a count other than one. |
| Render.DepartBacklinkHtmlNesting | inline_reference/inline_reference.py:152-160 | Counting tags opened minus tags closed, the written depart closes one tag for exactly one backref. For any other count it is balanced on its own, provided no backref contains `<`. |
| Render.BacklinkHtmlNesting | inline_reference/inline_reference.py:140-160 | Suppose `starttag` renders one opening tag, no backref contains `<`, and the content closes what it opens. Then visit, content and written depart leave exactly one tag open for any count other than one, and none for one. With the corrected depart, the result is balanced for every count. |
| Render.VisitMutualRefLatex | inline_reference/inline_reference.py:70-76 | The visit fails exactly when the node has no `refid`, which raises `KeyError` in the source. Otherwise it starts with a `\hyperlink` to the label of `refid` and ends by opening a hypertarget for the label of `ids[0]`. |
| Render.DepartMutualRefLatex | inline_reference/inline_reference.py:79-81 | The depart closes two brace groups: those of the link and of the target. |
| Render.LatexMutualRefBalanced | inline_reference/inline_reference.py:70-81 | The visit opens two brace groups and the depart closes them, provided the two escaped labels are brace-balanced. |
| Render.VisitBacklinkLatex | inline_reference/inline_reference.py:163-172 | For every backref count, the visit ends by opening a hypertarget for the label of the node's own id. It starts with a `\hyperlink` exactly when there is one backref, and that link goes to the label of `backrefs[0]`. |
| Render.LatexLinksAt | inline_reference/inline_reference.py:182-185 | There is one link per backref, and link `i` points at the label of `backrefs[i]` and shows `start + i`. |
| Render.DepartBacklinkLatexLinks | inline_reference/inline_reference.py:175-187 | For a count other than one, the depart closes the target and emits a subscript of comma-joined links. It holds exactly one link per backref, and link `i` is `\hyperlink{label of backrefs[i]}{i}`. |
| Render.LatexBacklinkBalanced | inline_reference/inline_reference.py:163-187 | For every backref count, the visit and the depart of a backlink together leave the braces balanced, provided the escaped labels are brace-balanced. |
| Order.SortBy | inline_reference/inline_reference.py:240 | `sorted` gives a permutation of its input, ordered by key. |
| Order.SortByStable | inline_reference/inline_reference.py:240 | `sorted` is stable: the entries with any one key keep their relative order. |
| Index.KeyOf | inline_reference/inline_reference.py:248 | The group key of an entry with a non-empty display name is one character, and never an uppercase letter. |
| Index.CollectGrouped | inline_reference/inline_reference.py:247-257 | The `defaultdict` loop keeps these invariants: keys are distinct, and each group is non-empty. Each group holds exactly the entries with its key, in input order. Every entry's key has a group. |
| Index.CollectCount | inline_reference/inline_reference.py:247-257 | The loop files every entry exactly once. |
| Index.Generate | inline_reference/inline_reference.py:235-260 | `generate` fails exactly when some display name is empty, where `dispname[0]` raises. Otherwise it returns its content with the flag `True`. |
| Index.GenerateKeysAscending | inline_reference/inline_reference.py:259 | The returned groups have strictly ascending keys, each a single character that is not uppercase. |
| Index.GenerateGroupContents | inline_reference/inline_reference.py:238-257 | Each group is non-empty and lists exactly the registry entries with its key, sorted by name. The multiset of those entries equals the registry's entries with that key. |
| Index.GenerateCoversRegistry | inline_reference/inline_reference.py:247-257 | Every registry tuple appears in the group for its first letter. It appears as the entry `ToIndexEntry` builds from it: its display name, subtype 0, its docname twice, its anchor, an empty qualifier and its type as description. |
| Index.GenerateCountsEveryEntry | inline_reference/inline_reference.py:235-260 | The group sizes add up to the number of registry tuples. |

## Left out

- `setup` registers the domain, roles and node visitors; the model has no way to state that registration. The model keeps only its handler order (`Pipeline.ResolveDoctree`) and which LaTeX visitor `id_reference` gets.
- The default visitors (`visit_reference_node_default` and the matching depart) forward to the writer's own `visit_reference`. Those are host code, so they are not part of this model, and neither is the text output format.
- `visit_reference_target_node_latex` calls the LaTeX writer's `hypertarget_to`, which is host code and not part of this model. Its depart emits nothing.
- `visit_reference_target_node_html` is modelled, but only as the branch of `Render.VisitBacklinkHtml` for a count other than one. Its depart emits `</a>`, which is the close that `Render.DepartBacklinkHtmlClosed` writes first. Their classes are saved and restored around `starttag`, and the model expresses this by passing the node with empty classes.
- `make_refnode` is a Sphinx function. `Xref.MakeLinkNode` models it with the same `refid`/`refuri` choice as `make_id_refnode`.
- `warnings.warn` side effects are returned lists of warning values. The missing-target warning of `resolve_xref` is its `None` result.
- `visit_backlink_node_latex` stores `node['refid'] = backrefs[0]` before delegating. The model passes that value instead of mutating the node, because render output does not depend on the mutation.
- The node's children, meaning the content between visit and depart, are a plain string.
- Index.KeyOf: `str.lower()` is modelled for ASCII `A`–`Z` only, because Dafny strings carry no Unicode case tables.
- Order.SortBy: Python compares strings by code point. The model compares `char` values, which is the same order for every character a `seq<char>` holds.
- `get_full_qualified_name`, `merge_domaindata`, the parallel-safety flags, `conf.py` and the integration tests are not part of this model.
- Backlinks.ProcessBacklinkNodes: a reference without ids would raise `IndexError` at `ref_node['ids'][0]`. The model requires every `id_reference` and `backlink` node to carry an id, which holds for every node the roles and `resolve_xref` build.
- Render.LatexBacklinkBalanced, Render.LatexMutualRefBalanced: these assume that each escaped label is brace-balanced. The host's escaper wraps its text in `\detokenize{...}`, which adds a balanced pair (`Render.DetokenizeKeepsDepth`), so the assumption holds whenever the text inside is balanced. The model no longer counts backslashes per link, because `\detokenize` adds one to every label. One link per backref is stated link by link instead (`Render.DepartBacklinkLatexLinks`).
- Render.BacklinkHtmlNesting: tags are counted by `<` and `</` only. The lemma assumes that `starttag` renders exactly one opening tag, that backrefs hold no `<`, and that the content closes every tag it opens.
- Mutual.ProcessMutualReferenceNodes: the model requires every `mutual_ref` to carry an id. The role always gives it one, and with no id `node['ids'][0]` would raise.

## Findings

| source | as written | input that shows it | evidently intended | confidence | as-written member | corrected member |
|---|---|---|---|---|---|---|
| inline_reference/inline_reference.py:411-420 | If neither lookup finds a backlink, the warning message reads `ref_node["refid"]`. That read raises `KeyError` inside the `except` handler whenever the reference has only a `refuri`. | An `id_reference` resolved to a backlink in another document carries only `refuri="other.html#backlink-t1"`. When the doctree being processed has no backlink with id `backlink-t1`, the build aborts instead of warning. | Warn about the reference, naming it by its own id, and skip it, as the `continue` shows. | not executed | Backlinks.ProcessBacklinkNodesAsWritten | Backlinks.ProcessBacklinkNodes |
| inline_reference/inline_reference.py:140-160 | For any count other than one, `visit_backlink_node_html` opens `<a style=...>`. `depart_backlink_node_html` writes `</a>` only for exactly one backref. | A backlink with no references leaves an `<a>` unclosed. With two references, `<a href=#x><sub>0</sub></a>,...` is emitted inside the still-open anchor, so the anchors nest. | Close the visit's anchor in every case, then append the markers. | not executed | Render.DepartBacklinkHtmlLeavesAnchorOpen | Render.DepartBacklinkHtmlClosed |

=== FILE: backlinks.dfy ===
/** `process_backlink_nodes`, run on one resolved doctree: each `id_reference` adds
    its own id as a backref of the `backlink` node it points at, found by `refid` or
    else by the fragment of `refuri`. */
module Backlinks {
  import opened Outcomes
  import opened Nodes
  import opened Xref

  /** A reference whose target is not a backlink of this doctree, named by an id. */
  datatype BacklinkWarning = UnknownTarget(id: string)

  /** Backlink and `id_reference` nodes carry an id, as the roles and `resolve_xref`
      create them. */
  predicate WellFormed(doc: Doctree)
  {
    forall i :: 0 <= i < |doc| && (doc[i].kind == Backlink || doc[i].kind == IdReference) ==> |doc[i].ids| > 0
  }

  predicate IsBacklinkWithId(n: Node, id: string)
  {
    n.kind == Backlink && |n.ids| > 0 && n.ids[0] == id
  }

  /** The `backlinks` dict entry for `id` after the first `hi` nodes: the last backlink
      with that id (a later node overwrites an earlier one). */
  function LastBacklink(doc: Doctree, id: string, hi: nat): (r: Option<nat>)
    requires hi <= |doc|
    ensures r.Some? ==> r.value < hi && IsBacklinkWithId(doc[r.value], id)
    ensures r.Some? ==> forall j :: r.value < j < hi ==> !IsBacklinkWithId(doc[j], id)
    ensures r.None? <==> forall j :: 0 <= j < hi ==> !IsBacklinkWithId(doc[j], id)
  {
    if hi == 0 then None
    else if IsBacklinkWithId(doc[hi - 1], id) then Some(hi - 1)
    else LastBacklink(doc, id, hi - 1)
  }

  function Lookup(doc: Doctree, id: string): Option<nat>
  {
    LastBacklink(doc, id, |doc|)
  }

  /** The backlink a reference is attached to: by `refid` if that names a backlink,
      otherwise by the fragment of `refuri`; `None` when neither does. */
  function Target(doc: Doctree, ref: Node): (r: Option<nat>)
    ensures r.Some? ==> r.value < |doc| && doc[r.value].kind == Backlink
  {
    if ref.refid.Some? && Lookup(doc, ref.refid.value).Some? then Lookup(doc, ref.refid.value)
    else if ref.refuri.Some? then Lookup(doc, Fragment(ref.refuri.value))
    else None
  }

  /** The reference at `j` is attached to the backlink at `i`. */
  predicate Attaches(doc: Doctree, j: nat, i: nat)
    requires j < |doc|
  {
    doc[j].kind == IdReference && Target(doc, doc[j]) == Some(i)
  }

  /** The ids of the references among the first `hi` nodes attached to the node at `i`,
      in document order. */
  function Incoming(doc: Doctree, i: nat, hi: nat): seq<string>
    requires WellFormed(doc) && hi <= |doc|
  {
    if hi == 0 then []
    else Incoming(doc, i, hi - 1) + (if Attaches(doc, hi - 1, i) then [doc[hi - 1].ids[0]] else [])
  }

  /** One warning per reference among the first `hi` nodes that is attached nowhere. */
  function Dangling(doc: Doctree, hi: nat): seq<BacklinkWarning>
    requires WellFormed(doc) && hi <= |doc|
  {
    if hi == 0 then []
    else
      var n := doc[hi - 1];
      Dangling(doc, hi - 1) + (if n.kind == IdReference && Target(doc, n).None? then [UnknownTarget(n.ids[0])] else [])
  }

  /** The pass's result for the node at `i`: its backrefs followed by its incoming ids. */
  function Aggregated(doc: Doctree, i: nat): Node
    requires WellFormed(doc) && i < |doc|
  {
    doc[i].(backrefs := doc[i].backrefs + Incoming(doc, i, |doc|))
  }

  function AggregateAll(doc: Doctree): (r: Doctree)
    requires WellFormed(doc)
    ensures |r| == |doc| && forall i :: 0 <= i < |doc| ==> r[i] == Aggregated(doc, i)
  {
    seq(|doc|, i requires 0 <= i < |doc| => Aggregated(doc, i))
  }

  /** The dict's answer for `id`: the node stored under it, if any. */
  function Get(m: map<string, nat>, id: string): Option<nat>
  {
    if id in m then Some(m[id]) else None
  }

  /** The first loop: `backlinks[node['ids'][0]] = node` for every backlink node. */
  method BuildBacklinkMap(doc: Doctree) returns (m: map<string, nat>)
    requires WellFormed(doc)
    ensures forall id :: id in m <==> Lookup(doc, id).Some?
    ensures forall id :: id in m ==> Lookup(doc, id) == Some(m[id])
  {
    m := map[];
    var i := 0;
    while i < |doc|
      invariant 0 <= i <= |doc|
      invariant forall id :: Get(m, id) == LastBacklink(doc, id, i)
    {
      var m' := if doc[i].kind == Backlink then m[doc[i].ids[0] := i] else m;
      forall id
        ensures Get(m', id) == LastBacklink(doc, id, i + 1)
      {
        assert Get(m, id) == LastBacklink(doc, id, i);
      }
      m := m';
      i := i + 1;
    }
    forall id
      ensures id in m <==> Lookup(doc, id).Some?
      ensures id in m ==> Lookup(doc, id) == Some(m[id])
    {
      assert Get(m, id) == LastBacklink(doc, id, |doc|);
    }
  }

  /** The nested `try` of the second loop: `backlinks[ref_node['refid']]`, and on a
      `KeyError` (no `refid`, or no such key) `backlinks[ref_node['refuri'].split('#')[-1]]`;
      `None` where the second lookup raises too. */
  function DictTarget(backlinks: map<string, nat>, n: Node): Option<nat>
  {
    if n.refid.Some? && n.refid.value in backlinks then Some(backlinks[n.refid.value])
    else if n.refuri.Some? && Fragment(n.refuri.value) in backlinks then Some(backlinks[Fragment(n.refuri.value)])
    else None
  }

  /** The nested lookups of the second loop on the dict the first loop built. */
  method FindTarget(doc: Doctree, backlinks: map<string, nat>, n: Node) returns (target: Option<nat>)
    requires forall id :: id in backlinks <==> Lookup(doc, id).Some?
    requires forall id :: id in backlinks ==> Lookup(doc, id) == Some(backlinks[id])
    ensures target == Target(doc, n)
  {
    target := DictTarget(backlinks, n);
  }

  /** `out` holds every node with the ids of the references before `j` attached. */
  predicate AttachedUpTo(doc: Doctree, out: Doctree, j: nat)
    requires WellFormed(doc) && j <= |doc|
  {
    && |out| == |doc|
    && forall t :: 0 <= t < |doc| ==> out[t] == doc[t].(backrefs := doc[t].backrefs + Incoming(doc, t, j))
  }

  /** One node across one step of the second loop: it gains the reference's id exactly
      when the reference attaches to it. */
  lemma AttachStepAt(doc: Doctree, j: nat, t: nat, before: Node, after: Node)
    requires WellFormed(doc) && j < |doc| && t < |doc|
    requires before == doc[t].(backrefs := doc[t].backrefs + Incoming(doc, t, j))
    requires after == if Attaches(doc, j, t) then AddBackref(before, doc[j].ids[0]) else before
    ensures after == doc[t].(backrefs := doc[t].backrefs + Incoming(doc, t, j + 1))
  {
    var inc := Incoming(doc, t, j);
    if Attaches(doc, j, t) {
      assert Incoming(doc, t, j + 1) == inc + [doc[j].ids[0]];
      assert (doc[t].backrefs + inc) + [doc[j].ids[0]] == doc[t].backrefs + (inc + [doc[j].ids[0]]);
    } else {
      assert Incoming(doc, t, j + 1) == inc;
    }
  }

  lemma AttachStep(doc: Doctree, out: Doctree, j: nat, out': Doctree)
    requires WellFormed(doc) && j < |doc| && AttachedUpTo(doc, out, j)
    requires
      var n := doc[j];
      out' == if n.kind == IdReference && Target(doc, n).Some?
              then out[Target(doc, n).value := AddBackref(out[Target(doc, n).value], n.ids[0])]
              else out
    ensures AttachedUpTo(doc, out', j + 1)
  {
    forall t | 0 <= t < |doc|
      ensures out'[t] == doc[t].(backrefs := doc[t].backrefs + Incoming(doc, t, j + 1))
    {
      assert out'[t] == if Attaches(doc, j, t) then AddBackref(out[t], doc[j].ids[0]) else out[t];
      AttachStepAt(doc, j, t, out[t], out'[t]);
    }
  }

  /** `process_backlink_nodes` with a skipped, warned-about reference when the target is
      unknown: every node ends with its incoming ids appended, and every reference
      attached nowhere yields one warning. */
  method ProcessBacklinkNodes(doc: Doctree) returns (out: Doctree, warnings: seq<BacklinkWarning>)
    requires WellFormed(doc)
    ensures out == AggregateAll(doc)
    ensures warnings == Dangling(doc, |doc|)
  {
    var backlinks := BuildBacklinkMap(doc);
    out := doc;
    warnings := [];
    var j := 0;
    while j < |doc|
      invariant 0 <= j <= |doc|
      invariant AttachedUpTo(doc, out, j)
      invariant warnings == Dangling(doc, j)
    {
      var n := doc[j];
      var before := out;
      assert Dangling(doc, j + 1) == Dangling(doc, j) +
        (if n.kind == IdReference && Target(doc, n).None? then [UnknownTarget(n.ids[0])] else []);
      if n.kind == IdReference {
        var target := FindTarget(doc, backlinks, n);
        if target.Some? {
          var b := target.value;
          out := out[b := AddBackref(out[b], n.ids[0])];
        } else {
          warnings := warnings + [UnknownTarget(n.ids[0])];
        }
      }
      AttachStep(doc, before, j, out);
      j := j + 1;
    }
  }

  /** An attached reference's id is among the ids its backlink collects. */
  lemma {:induction false} AttachedIdIsIncoming(doc: Doctree, j: nat, i: nat, hi: nat)
    requires WellFormed(doc) && j < hi <= |doc| && Attaches(doc, j, i)
    ensures doc[j].ids[0] in Incoming(doc, i, hi)
  {
    var step := if Attaches(doc, hi - 1, i) then [doc[hi - 1].ids[0]] else [];
    assert Incoming(doc, i, hi) == Incoming(doc, i, hi - 1) + step;
    if j < hi - 1 {
      AttachedIdIsIncoming(doc, j, i, hi - 1);
    } else {
      assert step == [doc[j].ids[0]];
    }
  }

  /** A reference is only ever attached to a backlink that wins the dict entry of its
      own id: of several backlinks sharing an id, the later one takes all. */
  lemma TargetIsWinningBacklink(doc: Doctree, ref: Node, i: nat)
    requires Target(doc, ref) == Some(i)
    ensures i < |doc| && doc[i].kind == Backlink && |doc[i].ids| > 0
    ensures Lookup(doc, doc[i].ids[0]) == Some(i)
  {
  }

  /** A node with incoming ids has a reference attached to it. */
  lemma {:induction false} SomeAttacher(doc: Doctree, i: nat, hi: nat) returns (j: nat)
    requires WellFormed(doc) && hi <= |doc|
    requires Incoming(doc, i, hi) != []
    ensures j < hi && Attaches(doc, j, i)
  {
    if Attaches(doc, hi - 1, i) {
      j := hi - 1;
    } else {
      assert Incoming(doc, i, hi) == Incoming(doc, i, hi - 1) + [];
      j := SomeAttacher(doc, i, hi - 1);
    }
  }

  lemma OnlyWinningBacklinkGains(doc: Doctree, i: nat, hi: nat)
    requires WellFormed(doc) && hi <= |doc|
    requires Incoming(doc, i, hi) != []
    ensures i < |doc| && doc[i].kind == Backlink && |doc[i].ids| > 0
    ensures Lookup(doc, doc[i].ids[0]) == Some(i)
  {
    var j := SomeAttacher(doc, i, hi);
    TargetIsWinningBacklink(doc, doc[j], i);
  }

  /** Number of `id_reference` nodes among the first `hi`. */
  function CountReferences(doc: Doctree, hi: nat): nat
    requires hi <= |doc|
  {
    if hi == 0 then 0 else CountReferences(doc, hi - 1) + (if doc[hi - 1].kind == IdReference then 1 else 0)
  }

  /** Backrefs added to the nodes below `n` by the references among the first `hi`. */
  function AddedBelow(doc: Doctree, hi: nat, n: nat): nat
    requires WellFormed(doc) && hi <= |doc| && n <= |doc|
  {
    if n == 0 then 0 else AddedBelow(doc, hi, n - 1) + |Incoming(doc, n - 1, hi)|
  }

  lemma {:induction false} AddedBelowStep(doc: Doctree, hi: nat, n: nat)
    requires WellFormed(doc) && hi < |doc| && n <= |doc|
    ensures AddedBelow(doc, hi + 1, n) == AddedBelow(doc, hi, n) +
      (if doc[hi].kind == IdReference && Target(doc, doc[hi]).Some? && Target(doc, doc[hi]).value < n then 1 else 0)
  {
    if n > 0 {
      AddedBelowStep(doc, hi, n - 1);
    }
  }

  /** Every `id_reference` is accounted for exactly once: it adds one backref to one
      backlink, or it yields one warning. */
  lemma {:induction false} EveryReferenceCountedOnce(doc: Doctree, hi: nat)
    requires WellFormed(doc) && hi <= |doc|
    ensures AddedBelow(doc, hi, |doc|) + |Dangling(doc, hi)| == CountReferences(doc, hi)
  {
    if hi == 0 {
      ZeroAdded(doc, |doc|);
    } else {
      EveryReferenceCountedOnce(doc, hi - 1);
      AddedBelowStep(doc, hi - 1, |doc|);
    }
  }

  lemma {:induction false} ZeroAdded(doc: Doctree, n: nat)
    requires WellFormed(doc) && n <= |doc|
    ensures AddedBelow(doc, 0, n) == 0
  {
    if n > 0 {
      ZeroAdded(doc, n - 1);
    }
  }

  /** Two doctrees whose nodes agree on everything the pass reads: the kind of every
      node, and the ids and link fields of backlinks and id references. */
  predicate SameLinks(a: Doctree, b: Doctree)
  {
    && |a| == |b|
    && forall i :: 0 <= i < |a| ==>
         && a[i].kind == b[i].kind
         && (a[i].kind == Backlink || a[i].kind == IdReference ==>
               a[i].ids == b[i].ids && a[i].refid == b[i].refid && a[i].refuri == b[i].refuri)
  }

  lemma {:induction false} SameLinksSameLookup(a: Doctree, b: Doctree, id: string, hi: nat)
    requires SameLinks(a, b) && hi <= |a|
    ensures LastBacklink(a, id, hi) == LastBacklink(b, id, hi)
  {
    if hi > 0 {
      SameLinksSameLookup(a, b, id, hi - 1);
    }
  }

  lemma SameLinksSameTarget(a: Doctree, b: Doctree, ref: Node)
    requires SameLinks(a, b)
    ensures Target(a, ref) == Target(b, ref)
  {
    if ref.refid.Some? {
      SameLinksSameLookup(a, b, ref.refid.value, |a|);
    }
    if ref.refuri.Some? {
      SameLinksSameLookup(a, b, Fragment(ref.refuri.value), |a|);
    }
  }

  lemma {:induction false} SameLinksSameIncoming(a: Doctree, b: Doctree, i: nat, hi: nat)
    requires SameLinks(a, b) && WellFormed(a) && WellFormed(b) && hi <= |a|
    ensures Incoming(a, i, hi) == Incoming(b, i, hi)
  {
    if hi > 0 {
      SameLinksSameIncoming(a, b, i, hi - 1);
      SameLinksSameTarget(a, b, a[hi - 1]);
    }
  }

  /** The backlink a reference reaches depends only on its `refid` and `refuri`. */
  lemma TargetReadsLinksOnly(doc: Doctree, n: Node, m: Node)
    requires n.refid == m.refid && n.refuri == m.refuri
    ensures Target(doc, n) == Target(doc, m)
  {
  }

  lemma {:induction false} SameLinksSameDangling(a: Doctree, b: Doctree, hi: nat)
    requires SameLinks(a, b) && WellFormed(a) && WellFormed(b) && hi <= |a|
    ensures Dangling(a, hi) == Dangling(b, hi)
  {
    if hi > 0 {
      SameLinksSameDangling(a, b, hi - 1);
      var n, m := a[hi - 1], b[hi - 1];
      assert n.kind == m.kind;
      if n.kind == IdReference {
        assert n.ids == m.ids && n.refid == m.refid && n.refuri == m.refuri;
        SameLinksSameTarget(a, b, n);
        TargetReadsLinksOnly(b, n, m);
      }
    }
  }

  /** The pass only appends backrefs, so the doctree it leaves links exactly as before. */
  lemma AggregateKeepsLinks(doc: Doctree)
    requires WellFormed(doc)
    ensures SameLinks(doc, AggregateAll(doc)) && WellFormed(AggregateAll(doc))
  {
  }

  /** There is no "consumed" flag: running the pass a second time on its own output
      attaches every reference again, so each backlink lists its incoming ids twice. */
  lemma SecondRunDuplicatesBackrefs(doc: Doctree, i: nat)
    requires WellFormed(doc) && i < |doc|
    ensures
      var once := AggregateAll(doc);
      AggregateAll(once)[i].backrefs == doc[i].backrefs + Incoming(doc, i, |doc|) + Incoming(doc, i, |doc|)
  {
    var once := AggregateAll(doc);
    AggregateKeepsLinks(doc);
    SameLinksSameIncoming(once, doc, i, |doc|);
  }

  /** What the unguarded code raises: the warning's message reads `ref_node["refid"]`. */
  datatype Crash = KeyError(key: string)

  /** What the written pass leaves when it runs to the end. */
  datatype Pass = Pass(out: Doctree, warnings: seq<BacklinkWarning>)

  /** The `backlinks` dict after the first loop has seen the first `hi` nodes. */
  function BacklinkDict(doc: Doctree, hi: nat): (m: map<string, nat>)
    requires WellFormed(doc) && hi <= |doc|
    ensures forall id :: id in m ==> m[id] < hi
  {
    if hi == 0 then map[]
    else
      var m := BacklinkDict(doc, hi - 1);
      if doc[hi - 1].kind == Backlink then m[doc[hi - 1].ids[0] := hi - 1] else m
  }

  lemma {:induction false} BacklinkDictIsLast(doc: Doctree, hi: nat)
    requires WellFormed(doc) && hi <= |doc|
    ensures forall id :: Get(BacklinkDict(doc, hi), id) == LastBacklink(doc, id, hi)
  {
    if hi > 0 {
      BacklinkDictIsLast(doc, hi - 1);
      var m := BacklinkDict(doc, hi - 1);
      forall id
        ensures Get(BacklinkDict(doc, hi), id) == LastBacklink(doc, id, hi)
      {
        assert Get(m, id) == LastBacklink(doc, id, hi - 1);
      }
    }
  }

  /** The written dict lookups place every reference where `Target` does. */
  lemma DictTargetIsTarget(doc: Doctree, n: Node)
    requires WellFormed(doc)
    ensures DictTarget(BacklinkDict(doc, |doc|), n) == Target(doc, n)
  {
    var m := BacklinkDict(doc, |doc|);
    BacklinkDictIsLast(doc, |doc|);
    if n.refid.Some? {
      assert Get(m, n.refid.value) == Lookup(doc, n.refid.value);
    }
    if n.refuri.Some? {
      assert Get(m, Fragment(n.refuri.value)) == Lookup(doc, Fragment(n.refuri.value));
    }
  }

  /** The second loop as written, from the node at `j` on. A reference neither lookup
      places reaches the inner `except`, whose warning names the reference by its
      `refid`; without one, reading it raises `KeyError` out of the pass. */
  function WrittenLoop(doc: Doctree, backlinks: map<string, nat>, j: nat, out: Doctree,
                       warnings: seq<BacklinkWarning>): Result<Pass, Crash>
    requires WellFormed(doc) && j <= |doc| && |out| == |doc|
    requires forall id :: id in backlinks ==> backlinks[id] < |doc|
    decreases |doc| - j
  {
    if j == |doc| then Ok(Pass(out, warnings))
    else
      var n := doc[j];
      if n.kind != IdReference then WrittenLoop(doc, backlinks, j + 1, out, warnings)
      else
        match DictTarget(backlinks, n)
        case Some(b) => WrittenLoop(doc, backlinks, j + 1, out[b := AddBackref(out[b], n.ids[0])], warnings)
        case None =>
          if n.refid.None? then Err(KeyError("refid"))
          else WrittenLoop(doc, backlinks, j + 1, out, warnings + [UnknownTarget(n.refid.value)])
  }

  /** The warning the written pass issues for the node at `j`, if any: a reference
      attached nowhere, reported under its `refid`. */
  function WrittenStep(doc: Doctree, j: nat): seq<BacklinkWarning>
    requires j < |doc|
  {
    var n := doc[j];
    if n.kind == IdReference && Target(doc, n).None? && n.refid.Some? then [UnknownTarget(n.refid.value)] else []
  }

  /** The warnings the written pass issues for the first `hi` nodes. */
  function WrittenDangling(doc: Doctree, hi: nat): seq<BacklinkWarning>
    requires hi <= |doc|
  {
    if hi == 0 then [] else WrittenDangling(doc, hi - 1) + WrittenStep(doc, hi - 1)
  }

  /** `out` after the node at `j` has been processed: a placed reference adds its id. */
  function Attach(doc: Doctree, j: nat, out: Doctree): (r: Doctree)
    requires WellFormed(doc) && j < |doc| && |out| == |doc|
    ensures |r| == |doc|
  {
    var n := doc[j];
    if n.kind == IdReference && Target(doc, n).Some?
    then out[Target(doc, n).value := AddBackref(out[Target(doc, n).value], n.ids[0])]
    else out
  }

  /** The reference at `j` reaches the warning and has no `refid` to print. */
  predicate AbortsBuild(doc: Doctree, j: nat)
    requires j < |doc|
  {
    doc[j].kind == IdReference && Target(doc, doc[j]).None? && doc[j].refid.None?
  }

  lemma WrittenLoopAborts(doc: Doctree, j: nat, out: Doctree, warnings: seq<BacklinkWarning>)
    requires WellFormed(doc) && j < |doc| && |out| == |doc| && AbortsBuild(doc, j)
    ensures WrittenLoop(doc, BacklinkDict(doc, |doc|), j, out, warnings) == Err(KeyError("refid"))
  {
    DictTargetIsTarget(doc, doc[j]);
  }

  lemma WrittenLoopStep(doc: Doctree, j: nat, out: Doctree, warnings: seq<BacklinkWarning>)
    requires WellFormed(doc) && j < |doc| && |out| == |doc| && !AbortsBuild(doc, j)
    ensures WrittenLoop(doc, BacklinkDict(doc, |doc|), j, out, warnings)
         == WrittenLoop(doc, BacklinkDict(doc, |doc|), j + 1, Attach(doc, j, out), warnings + WrittenStep(doc, j))
  {
    var n := doc[j];
    DictTargetIsTarget(doc, n);
    if n.kind != IdReference || Target(doc, n).Some? {
      assert warnings + WrittenStep(doc, j) == warnings;
    }
  }

  /** From node `j` on, the written loop raises exactly when a later reference aborts. */
  lemma {:induction false} WrittenLoopRaises(doc: Doctree, j: nat, out: Doctree, warnings: seq<BacklinkWarning>)
    requires WellFormed(doc) && j <= |doc| && |out| == |doc|
    ensures var r := WrittenLoop(doc, BacklinkDict(doc, |doc|), j, out, warnings);
      && (r.Err? <==> exists k :: j <= k < |doc| && AbortsBuild(doc, k))
      && (r.Err? ==> r.error == KeyError("refid"))
    decreases |doc| - j
  {
    if j < |doc| {
      if AbortsBuild(doc, j) {
        WrittenLoopAborts(doc, j, out, warnings);
      } else {
        WrittenLoopStep(doc, j, out, warnings);
        WrittenLoopRaises(doc, j + 1, Attach(doc, j, out), warnings + WrittenStep(doc, j));
        NoAbortHere(doc, j);
      }
    }
  }

  /** The doctree the written loop leaves from node `j` on, when nothing raises. */
  function AttachFrom(doc: Doctree, j: nat, out: Doctree): (r: Doctree)
    requires WellFormed(doc) && j <= |doc| && |out| == |doc|
    ensures |r| == |doc|
    decreases |doc| - j
  {
    if j == |doc| then out else AttachFrom(doc, j + 1, Attach(doc, j, out))
  }

  /** The warnings the written loop has issued when it ends, when nothing raises. */
  function WarnFrom(doc: Doctree, j: nat, warnings: seq<BacklinkWarning>): seq<BacklinkWarning>
    requires j <= |doc|
    decreases |doc| - j
  {
    if j == |doc| then warnings else WarnFrom(doc, j + 1, warnings + WrittenStep(doc, j))
  }

  /** When the written loop does not raise, it leaves `AttachFrom` and `WarnFrom`. */
  lemma {:induction false} WrittenLoopFinishes(doc: Doctree, j: nat, out: Doctree, warnings: seq<BacklinkWarning>)
    requires WellFormed(doc) && j <= |doc| && |out| == |doc|
    ensures var r := WrittenLoop(doc, BacklinkDict(doc, |doc|), j, out, warnings);
      r.Ok? ==> r.value == Pass(AttachFrom(doc, j, out), WarnFrom(doc, j, warnings))
    decreases |doc| - j
  {
    if j < |doc| {
      if AbortsBuild(doc, j) {
        WrittenLoopAborts(doc, j, out, warnings);
      } else {
        WrittenLoopStep(doc, j, out, warnings);
        WrittenLoopFinishes(doc, j + 1, Attach(doc, j, out), warnings + WrittenStep(doc, j));
      }
    }
  }

  /** Starting from the dangling references so far, the loop ends with all of them. */
  lemma {:induction false} WarnFromDangling(doc: Doctree, j: nat)
    requires j <= |doc|
    ensures WarnFrom(doc, j, WrittenDangling(doc, j)) == WrittenDangling(doc, |doc|)
    decreases |doc| - j
  {
    if j < |doc| {
      WarnFromDangling(doc, j + 1);
    }
  }

  /** Along any chain of doctrees each obtained from the one before by one step,
      running the loop from link `j` reaches the last link. */
  lemma {:induction false} AttachChain(doc: Doctree, j: nat, chain: seq<Doctree>)
    requires WellFormed(doc) && j <= |doc| && |chain| == |doc| + 1
    requires forall k :: 0 <= k <= |doc| ==> |chain[k]| == |doc|
    requires forall k :: 0 <= k < |doc| ==> Attach(doc, k, chain[k]) == chain[k + 1]
    ensures AttachFrom(doc, j, chain[j]) == chain[|doc|]
    decreases |doc| - j
  {
    if j < |doc| {
      AttachChain(doc, j + 1, chain);
    }
  }

  /** The doctree with the references before `j` attached. */
  function Partial(doc: Doctree, j: nat): Doctree
    requires WellFormed(doc) && j <= |doc|
  {
    seq(|doc|, t requires 0 <= t < |doc| => doc[t].(backrefs := doc[t].backrefs + Incoming(doc, t, j)))
  }

  lemma PartialStep(doc: Doctree, j: nat)
    requires WellFormed(doc) && j < |doc|
    ensures Attach(doc, j, Partial(doc, j)) == Partial(doc, j + 1)
  {
    var p, q := Partial(doc, j), Partial(doc, j + 1);
    assert AttachedUpTo(doc, p, j);
    AttachStep(doc, p, j, Attach(doc, j, p));
    assert AttachedUpTo(doc, q, j + 1);
  }

  /** Run to the end without raising, the loop attaches every reference. */
  lemma AttachFromAggregates(doc: Doctree)
    requires WellFormed(doc)
    ensures AttachFrom(doc, 0, doc) == AggregateAll(doc)
  {
    var chain := seq(|doc| + 1, k requires 0 <= k <= |doc| => Partial(doc, k));
    forall k | 0 <= k < |doc|
      ensures Attach(doc, k, chain[k]) == chain[k + 1]
    {
      PartialStep(doc, k);
    }
    AttachChain(doc, 0, chain);
    forall t | 0 <= t < |doc|
      ensures chain[0][t] == doc[t]
    {
      assert doc[t].backrefs + [] == doc[t].backrefs;
    }
    assert chain[0] == doc;
    assert chain[|doc|] == AggregateAll(doc);
  }

  /** Past a node that does not abort, an aborting node lies further on. */
  lemma NoAbortHere(doc: Doctree, j: nat)
    requires j < |doc| && !AbortsBuild(doc, j)
    ensures (exists k :: j <= k < |doc| && AbortsBuild(doc, k)) <==> (exists k :: j + 1 <= k < |doc| && AbortsBuild(doc, k))
  {
    if exists k :: j <= k < |doc| && AbortsBuild(doc, k) {
      var k :| j <= k < |doc| && AbortsBuild(doc, k);
      assert j + 1 <= k;
    }
  }

  /** `process_backlink_nodes` as written: it raises `KeyError('refid')` exactly when some
      reference attached nowhere has no `refid`; otherwise every backlink collects its
      incoming ids, as in the corrected pass, and each stray reference is reported under
      its `refid`. */
  function ProcessBacklinkNodesAsWritten(doc: Doctree): (r: Result<Pass, Crash>)
    requires WellFormed(doc)
    ensures r.Err? <==> exists j :: 0 <= j < |doc| && AbortsBuild(doc, j)
    ensures r.Err? ==> r.error == KeyError("refid")
    ensures r.Ok? ==> r.value.out == AggregateAll(doc) && r.value.warnings == WrittenDangling(doc, |doc|)
  {
    WrittenLoopRaises(doc, 0, doc, []);
    WrittenLoopFinishes(doc, 0, doc, []);
    AttachFromAggregates(doc);
    WarnFromDangling(doc, 0);
    WrittenLoop(doc, BacklinkDict(doc, |doc|), 0, doc, [])
  }

  /** Whether a reference makes the written pass raise depends only on what the pass reads. */
  lemma SameLinksSameAborts(a: Doctree, b: Doctree, j: nat)
    requires SameLinks(a, b) && j < |a|
    ensures AbortsBuild(a, j) == AbortsBuild(b, j)
  {
    if a[j].kind == IdReference {
      SameLinksSameTarget(a, b, a[j]);
      TargetReadsLinksOnly(b, a[j], b[j]);
    }
  }

  lemma {:induction false} SameLinksSameWrittenDangling(a: Doctree, b: Doctree, hi: nat)
    requires SameLinks(a, b) && hi <= |a|
    ensures WrittenDangling(a, hi) == WrittenDangling(b, hi)
  {
    if hi > 0 {
      SameLinksSameWrittenDangling(a, b, hi - 1);
      var n, m := a[hi - 1], b[hi - 1];
      if n.kind == IdReference {
        SameLinksSameTarget(a, b, n);
        TargetReadsLinksOnly(b, n, m);
      }
    }
  }

  /** A reference into another document is looked up by the fragment of its `refuri`
      alone. When this doctree has a backlink of its own with that id (the same
      signature declared as a backlink in both documents), the written pass does not
      raise: it files the foreign reference under the local backlink. */
  lemma ForeignReferenceAttachesLocally(doc: Doctree, j: nat, b: nat, uri: string, anchor: string)
    requires WellFormed(doc) && j < |doc|
    requires doc[j].kind == IdReference && doc[j].refid.None? && doc[j].refuri == Some(uri + "#" + anchor)
    requires '#' !in anchor && Lookup(doc, anchor) == Some(b)
    ensures !AbortsBuild(doc, j)
    ensures var r := ProcessBacklinkNodesAsWritten(doc);
      r.Ok? ==> b < |r.value.out| && doc[j].ids[0] in r.value.out[b].backrefs
  {
    FragmentAfterHash(uri, anchor);
    assert Attaches(doc, j, b);
    AttachedIdIsIncoming(doc, j, b, |doc|);
  }

  /** A reference into another document carries only a `refuri`; in its own doctree,
      where that document's backlink is absent, the written pass raises. */
  lemma ForeignReferenceAborts(doc: Doctree, j: nat)
    requires WellFormed(doc) && j < |doc|
    requires doc[j].kind == IdReference && doc[j].refid.None? && doc[j].refuri.Some?
    requires Lookup(doc, Fragment(doc[j].refuri.value)).None?
    ensures ProcessBacklinkNodesAsWritten(doc).Err?
  {
    assert AbortsBuild(doc, j);
  }

  /** The smallest such doctree: one reference to `backlink-t1` in `other.html`. */
  lemma CrossDocumentReferenceAborts()
    ensures
      var ref := Node(IdReference, "t1", ["backlink-t1-ref0"], None, Some("other.html#backlink-t1"),
                      Some("backlink-t1"), None, [], []);
      ProcessBacklinkNodesAsWritten([ref]) == Err(KeyError("refid"))
  {
    var ref := Node(IdReference, "t1", ["backlink-t1-ref0"], None, Some("other.html#backlink-t1"),
                    Some("backlink-t1"), None, [], []);
    assert AbortsBuild([ref], 0);
  }
}

=== FILE: index.dfy ===
/** `LooseRefIndex.generate`: the registry grouped by the lower-cased first character
    of each display name, groups in key order, entries in name order within a group. */
module Index {
  import opened Outcomes
  import opened Strings
  import opened Order
  import opened Registry

  /** The 7-tuple Sphinx expects: name, subtype, docname, anchor, extra, qualifier,
      description. */
  datatype IndexEntry = IndexEntry(
    name: string,
    subtype: int,
    docname: string,
    anchor: string,
    extra: string,
    qualifier: string,
    descr: string)

  /** One `(key, entries)` pair of the returned content. */
  datatype Group = Group(key: string, entries: seq<IndexEntry>)

  /** The sort key of the registry, `recipe[0]`. */
  function NameOf(e: Entry): string
  {
    e.name
  }

  function GroupKey(g: Group): string
  {
    g.key
  }

  function GroupSize(g: Group): nat
  {
    |g.entries|
  }

  /** `dispname[0].lower()`; the empty key stands for a name that has no first character. */
  function KeyOf(e: Entry): (k: string)
    ensures e.dispname != [] ==> |k| == 1 && !('A' <= k[0] <= 'Z')
  {
    if e.dispname == [] then "" else [Lower(e.dispname[0])]
  }

  /** The tuple appended for one registry entry. */
  function ToIndexEntry(e: Entry): (r: IndexEntry)
    ensures r.name == e.dispname && r.docname == r.extra == e.docname
    ensures r.anchor == e.anchor && r.descr == e.typ
    ensures r.subtype == 0 && r.qualifier == ""
  {
    IndexEntry(e.dispname, 0, e.docname, e.anchor, e.docname, "", e.typ)
  }

  function MapIE(s: seq<Entry>): (r: seq<IndexEntry>)
    ensures |r| == |s|
  {
    if s == [] then [] else MapIE(s[..|s| - 1]) + [ToIndexEntry(s[|s| - 1])]
  }

  /** The entries of `s` filed under key `k`, in the order of `s`. */
  function WithKey(s: seq<Entry>, k: string): seq<Entry>
  {
    if s == [] then [] else WithKey(s[..|s| - 1], k) + (if KeyOf(s[|s| - 1]) == k then [s[|s| - 1]] else [])
  }

  /** The position of the group with key `k`, if any. */
  function FindGroup(gs: seq<Group>, k: string): (r: Option<nat>)
    ensures r.Some? ==> r.value < |gs| && gs[r.value].key == k
    ensures r.None? ==> forall i :: 0 <= i < |gs| ==> gs[i].key != k
  {
    if gs == [] then None
    else if gs[|gs| - 1].key == k then Some(|gs| - 1)
    else FindGroup(gs[..|gs| - 1], k)
  }

  /** `content[key].append(...)` on a `defaultdict(list)`: append to the group with that
      key, or open a new group at the end. */
  function AddEntry(gs: seq<Group>, e: Entry): seq<Group>
  {
    var k := KeyOf(e);
    match FindGroup(gs, k)
    case Some(p) => Appended(gs, p, e)
    case None => gs + [Group(k, [ToIndexEntry(e)])]
  }

  /** The `for` loop: every entry filed in turn, groups in first-appearance order. */
  function Collect(s: seq<Entry>): seq<Group>
  {
    if s == [] then [] else AddEntry(Collect(s[..|s| - 1]), s[|s| - 1])
  }

  /** `generate` returns `(content, True)`; `None` where `dispname[0]` raises on an empty
      display name. */
  function Generate(reg: Store): (r: Option<(seq<Group>, bool)>)
    ensures r.None? <==> exists i :: 0 <= i < |reg| && reg[i].dispname == []
    ensures r.Some? ==> r.value.1
  {
    if exists i :: 0 <= i < |reg| && reg[i].dispname == [] then None
    else Some((SortBy(Collect(SortBy(reg, NameOf)), GroupKey), true))
  }

  // ---- facts about the grouping ----

  lemma MultisetLast<T>(s: seq<T>)
    requires s != []
    ensures multiset(s) == multiset(s[..|s| - 1]) + multiset{s[|s| - 1]}
  {
    assert s == s[..|s| - 1] + [s[|s| - 1]];
  }

  /** Filing is a filter: group `k` receives exactly the entries with key `k`. */
  lemma {:induction false} WithKeyMultiset(s: seq<Entry>, k: string, y: Entry)
    ensures multiset(WithKey(s, k))[y] == if KeyOf(y) == k then multiset(s)[y] else 0
  {
    if s != [] {
      WithKeyMultiset(s[..|s| - 1], k, y);
      MultisetLast(s);
    }
  }

  lemma {:induction false} WithKeyMember(s: seq<Entry>, k: string, y: Entry)
    requires y in WithKey(s, k)
    ensures y in s && KeyOf(y) == k
  {
    WithKeyMultiset(s, k, y);
    assert y in multiset(WithKey(s, k));
  }

  /** A filter of a name-sorted sequence is name-sorted. */
  lemma {:induction false} WithKeySorted(s: seq<Entry>, k: string)
    requires SortedBy(s, NameOf)
    ensures SortedBy(WithKey(s, k), NameOf)
  {
    if s != [] {
      var init := s[..|s| - 1];
      assert SortedBy(init, NameOf) by {
        assert forall i, j :: 0 <= i < j < |init| ==> init[i] == s[i] && init[j] == s[j];
      }
      WithKeySorted(init, k);
      var w := WithKey(init, k);
      if KeyOf(s[|s| - 1]) == k {
        var r := w + [s[|s| - 1]];
        forall i | 0 <= i < |w|
          ensures Le(NameOf(w[i]), NameOf(s[|s| - 1]))
        {
          assert w[i] in w;
          WithKeyMember(init, k, w[i]);
          var a :| 0 <= a < |init| && init[a] == w[i];
          assert s[a] == w[i];
        }
        forall i, j | 0 <= i < j < |r|
          ensures Le(NameOf(r[i]), NameOf(r[j]))
        {
          assert r[i] == w[i];
          if j == |w| {
            assert r[j] == s[|s| - 1];
          } else {
            assert r[j] == w[j];
          }
        }
      }
    }
  }

  /** What filing the entries of `s` in turn leaves behind: distinct keys, every group
      holding exactly its key's entries in order, no empty group, and a group for every
      entry. */
  predicate Grouped(s: seq<Entry>, gs: seq<Group>)
  {
    && DistinctKeys(gs, GroupKey)
    && Filed(s, gs)
    && (forall i :: 0 <= i < |gs| ==> gs[i].entries != [])
    && Covered(s, gs)
  }

  /** A key that has entries has a group. */
  lemma WithKeyHasGroup(s: seq<Entry>, gs: seq<Group>, k: string)
    requires Covered(s, gs)
    ensures WithKey(s, k) != [] ==> k in Keys(gs)
  {
    if WithKey(s, k) != [] {
      var y := WithKey(s, k)[0];
      WithKeyMember(s, k, y);
      var j :| 0 <= j < |s| && s[j] == y;
    }
  }

  lemma WithKeySnoc(s: seq<Entry>, e: Entry, k: string)
    ensures WithKey(s + [e], k) == WithKey(s, k) + (if KeyOf(e) == k then [e] else [])
  {
    assert (s + [e])[..|s|] == s;
  }

  lemma MapIESnoc(s: seq<Entry>, e: Entry)
    ensures MapIE(s + [e]) == MapIE(s) + [ToIndexEntry(e)]
  {
    assert (s + [e])[..|s|] == s;
  }

  /** Each group holds exactly its key's entries of `s`, in order. */
  predicate Filed(s: seq<Entry>, gs: seq<Group>)
  {
    forall i :: 0 <= i < |gs| ==> gs[i].entries == MapIE(WithKey(s, gs[i].key))
  }

  /** The keys of the groups, in order. */
  function Keys(gs: seq<Group>): (r: seq<string>)
    ensures |r| == |gs| && forall i :: 0 <= i < |gs| ==> r[i] == gs[i].key
  {
    seq(|gs|, i requires 0 <= i < |gs| => gs[i].key)
  }

  /** Every entry of `s` has a group. */
  predicate Covered(s: seq<Entry>, gs: seq<Group>)
  {
    forall j :: 0 <= j < |s| ==> KeyOf(s[j]) in Keys(gs)
  }

  function Appended(gs: seq<Group>, p: nat, e: Entry): seq<Group>
    requires p < |gs|
  {
    gs[p := Group(gs[p].key, gs[p].entries + [ToIndexEntry(e)])]
  }

  /** Appending to a group keeps every key and leaves no group empty that was not. */
  lemma AppendedShape(gs: seq<Group>, p: nat, e: Entry)
    requires p < |gs| && DistinctKeys(gs, GroupKey)
    requires forall i :: 0 <= i < |gs| ==> gs[i].entries != []
    ensures DistinctKeys(Appended(gs, p, e), GroupKey)
    ensures forall i :: 0 <= i < |gs| ==> Appended(gs, p, e)[i].entries != []
  {
    var gs' := Appended(gs, p, e);
    assert forall i :: 0 <= i < |gs'| ==> gs'[i].key == gs[i].key && gs'[i].entries != [];
  }

  lemma AddToGroupFiled(s: seq<Entry>, gs: seq<Group>, e: Entry, p: nat)
    requires DistinctKeys(gs, GroupKey) && Filed(s, gs) && p < |gs| && gs[p].key == KeyOf(e)
    ensures Filed(s + [e], Appended(gs, p, e))
  {
    var s', k, gs' := s + [e], KeyOf(e), Appended(gs, p, e);
    forall i | 0 <= i < |gs'|
      ensures gs'[i].entries == MapIE(WithKey(s', gs'[i].key))
    {
      WithKeySnoc(s, e, gs[i].key);
      if i == p {
        MapIESnoc(WithKey(s, k), e);
      } else {
        assert gs'[i] == gs[i] && gs[i].key != k;
        assert WithKey(s, gs[i].key) + [] == WithKey(s, gs[i].key);
      }
    }
  }

  lemma AddToGroupCovered(s: seq<Entry>, gs: seq<Group>, e: Entry, p: nat)
    requires Covered(s, gs) && p < |gs| && gs[p].key == KeyOf(e)
    ensures Covered(s + [e], Appended(gs, p, e))
  {
    assert Keys(Appended(gs, p, e)) == Keys(gs);
    assert KeyOf(e) == Keys(gs)[p];
    assert forall j :: 0 <= j < |s| ==> (s + [e])[j] == s[j];
  }

  /** Filing an entry whose key already has a group. */
  lemma AddToGroup(s: seq<Entry>, gs: seq<Group>, e: Entry, p: nat)
    requires Grouped(s, gs) && p < |gs| && gs[p].key == KeyOf(e)
    ensures Grouped(s + [e], Appended(gs, p, e))
  {
    AddToGroupFiled(s, gs, e, p);
    AddToGroupCovered(s, gs, e, p);
    AppendedShape(gs, p, e);
  }

  /** Filing an entry whose key has no group yet. */
  lemma {:induction false} OpenGroupFiled(s: seq<Entry>, gs: seq<Group>, e: Entry)
    requires Filed(s, gs) && WithKey(s, KeyOf(e)) == [] && KeyOf(e) !in Keys(gs)
    ensures Filed(s + [e], gs + [Group(KeyOf(e), [ToIndexEntry(e)])])
  {
    var s', k := s + [e], KeyOf(e);
    var gs' := gs + [Group(k, [ToIndexEntry(e)])];
    forall i | 0 <= i < |gs'|
      ensures gs'[i].entries == MapIE(WithKey(s', gs'[i].key))
    {
      WithKeySnoc(s, e, gs'[i].key);
      if i == |gs| {
        assert WithKey(s', k) == [] + [e];
        MapIESnoc([], e);
      } else {
        assert gs'[i] == gs[i] && Keys(gs)[i] == gs[i].key;
        assert WithKey(s, gs[i].key) + [] == WithKey(s, gs[i].key);
      }
    }
  }

  lemma OpenGroupCovered(s: seq<Entry>, gs: seq<Group>, e: Entry)
    requires Covered(s, gs)
    ensures Covered(s + [e], gs + [Group(KeyOf(e), [ToIndexEntry(e)])])
  {
    assert Keys(gs + [Group(KeyOf(e), [ToIndexEntry(e)])]) == Keys(gs) + [KeyOf(e)];
    assert forall j :: 0 <= j < |s| ==> (s + [e])[j] == s[j];
  }

  /** Filing an entry whose key has no group yet. */
  lemma OpenGroup(s: seq<Entry>, gs: seq<Group>, e: Entry)
    requires Grouped(s, gs) && KeyOf(e) !in Keys(gs)
    ensures Grouped(s + [e], gs + [Group(KeyOf(e), [ToIndexEntry(e)])])
  {
    WithKeyHasGroup(s, gs, KeyOf(e));
    OpenGroupFiled(s, gs, e);
    OpenGroupCovered(s, gs, e);
  }

  /** Filing the last entry of `s` keeps the grouping invariant. */
  lemma {:induction false} AddEntryGrouped(s: seq<Entry>, gs: seq<Group>)
    requires s != [] && Grouped(s[..|s| - 1], gs)
    ensures Grouped(s, AddEntry(gs, s[|s| - 1]))
  {
    var init, e := s[..|s| - 1], s[|s| - 1];
    assert init + [e] == s;
    match FindGroup(gs, KeyOf(e))
    case Some(p) => AddToGroup(init, gs, e, p);
    case None =>
      assert forall i :: 0 <= i < |gs| ==> Keys(gs)[i] != KeyOf(e);
      OpenGroup(init, gs, e);
  }

  lemma {:induction false} CollectGrouped(s: seq<Entry>)
    ensures Grouped(s, Collect(s))
  {
    if s != [] {
      CollectGrouped(s[..|s| - 1]);
      AddEntryGrouped(s, Collect(s[..|s| - 1]));
    }
  }

  lemma SumByAppend<T>(s: seq<T>, x: T, m: T -> nat)
    ensures SumBy(s + [x], m) == SumBy(s, m) + m(x)
  {
    if s != [] {
      assert (s + [x])[1..] == s[1..] + [x];
      SumByAppend(s[1..], x, m);
    }
  }

  lemma {:induction false} SumByUpdate<T>(s: seq<T>, p: nat, x: T, m: T -> nat)
    requires p < |s|
    ensures SumBy(s[p := x], m) + m(s[p]) == SumBy(s, m) + m(x)
  {
    if p > 0 {
      SumByUpdate(s[1..], p - 1, x, m);
      assert s[p := x][1..] == s[1..][p - 1 := x];
    } else {
      assert s[p := x][1..] == s[1..];
    }
  }

  /** Filing keeps every entry exactly once. */
  lemma {:induction false} CollectCount(s: seq<Entry>)
    ensures SumBy(Collect(s), GroupSize) == |s|
  {
    if s != [] {
      var init := s[..|s| - 1];
      var e := s[|s| - 1];
      var gs := Collect(init);
      CollectCount(init);
      match FindGroup(gs, KeyOf(e))
      case Some(p) =>
        SumByUpdate(gs, p, Group(KeyOf(e), gs[p].entries + [ToIndexEntry(e)]), GroupSize);
      case None =>
        SumByAppend(gs, Group(KeyOf(e), [ToIndexEntry(e)]), GroupSize);
    }
  }

  // ---- what `generate` returns ----

  /** A group produced by filing `s` holds exactly its key's entries, and at least one. */
  lemma CollectFiled(s: seq<Entry>, g: Group)
    requires g in Collect(s)
    ensures g.entries == MapIE(WithKey(s, g.key)) && WithKey(s, g.key) != []
  {
    CollectGrouped(s);
    var a :| 0 <= a < |Collect(s)| && Collect(s)[a] == g;
  }

  /** Filing never opens two groups with one key. */
  lemma CollectDistinct(s: seq<Entry>)
    ensures DistinctKeys(Collect(s), GroupKey)
  {
    CollectGrouped(s);
  }

  /** Each group's key is the lower-cased first character of a registered name. */
  lemma {:induction false} GroupKeyShape(reg: Store, g: Group)
    requires Generate(reg).Some? && g in Generate(reg).value.0
    ensures |g.key| == 1 && !('A' <= g.key[0] <= 'Z')
  {
    var sorted := SortBy(reg, NameOf);
    assert g in multiset(Collect(sorted));
    CollectFiled(sorted, g);
    var w := WithKey(sorted, g.key);
    WithKeyMember(sorted, g.key, w[0]);
    assert w[0] in multiset(reg);
  }

  /** The groups come in strictly ascending key order, each key one lower-cased character. */
  lemma GenerateKeysAscending(reg: Store)
    requires Generate(reg).Some?
    ensures var gs := Generate(reg).value.0;
      StrictlySortedBy(gs, GroupKey)
      && forall i :: 0 <= i < |gs| ==> |gs[i].key| == 1 && !('A' <= gs[i].key[0] <= 'Z')
  {
    var grouped := Collect(SortBy(reg, NameOf));
    var gs := Generate(reg).value.0;
    CollectDistinct(SortBy(reg, NameOf));
    SortByDistinct(grouped, GroupKey);
    SortedDistinctIsStrict(gs, GroupKey);
    forall i | 0 <= i < |gs|
      ensures |gs[i].key| == 1 && !('A' <= gs[i].key[0] <= 'Z')
    {
      GroupKeyShape(reg, gs[i]);
    }
  }

  /** The group under key `k` holds the tuples of exactly the registered entries whose
      display name starts with `k` (ignoring ASCII case), in name order. */
  lemma {:induction false} GenerateGroupContents(reg: Store, g: Group)
    requires Generate(reg).Some? && g in Generate(reg).value.0
    ensures g.entries == MapIE(WithKey(SortBy(reg, NameOf), g.key))
    ensures g.entries != []
    ensures SortedBy(WithKey(SortBy(reg, NameOf), g.key), NameOf)
    ensures multiset(WithKey(SortBy(reg, NameOf), g.key)) == multiset(WithKey(reg, g.key))
  {
    var sorted := SortBy(reg, NameOf);
    assert g in multiset(Collect(sorted));
    CollectFiled(sorted, g);
    WithKeySorted(sorted, g.key);
    forall y
      ensures multiset(WithKey(sorted, g.key))[y] == multiset(WithKey(reg, g.key))[y]
    {
      WithKeyMultiset(sorted, g.key, y);
      WithKeyMultiset(reg, g.key, y);
    }
  }

  /** Every registered entry, mutual references included, is listed under its key. */
  lemma GenerateCoversRegistry(reg: Store, e: Entry)
    requires Generate(reg).Some? && e in reg
    ensures exists g :: g in Generate(reg).value.0 && g.key == KeyOf(e) && ToIndexEntry(e) in g.entries
  {
    var sorted := SortBy(reg, NameOf);
    assert e in multiset(sorted);
    var g := CollectCovers(sorted, e);
    assert g in multiset(Generate(reg).value.0);
  }

  /** Filing puts every entry's tuple into the group of its key. */
  lemma CollectCovers(s: seq<Entry>, e: Entry) returns (g: Group)
    requires e in s
    ensures g in Collect(s) && g.key == KeyOf(e) && ToIndexEntry(e) in g.entries
  {
    var grouped := Collect(s);
    CollectGrouped(s);
    var j :| 0 <= j < |s| && s[j] == e;
    assert KeyOf(e) in Keys(grouped);
    var i :| 0 <= i < |grouped| && Keys(grouped)[i] == KeyOf(e);
    g := grouped[i];
    FiledContains(s, g, e);
  }

  /** A group that files an entry's key holds that entry's tuple. */
  lemma FiledContains(s: seq<Entry>, g: Group, e: Entry)
    requires g.entries == MapIE(WithKey(s, g.key)) && e in s && KeyOf(e) == g.key
    ensures ToIndexEntry(e) in g.entries
  {
    WithKeyMultiset(s, g.key, e);
    assert e in multiset(WithKey(s, g.key));
    MapIEContains(WithKey(s, g.key), e);
  }

  lemma {:induction false} MapIEContains(s: seq<Entry>, e: Entry)
    requires e in s
    ensures ToIndexEntry(e) in MapIE(s)
  {
    if s[|s| - 1] != e {
      assert e in s[..|s| - 1] by {
        var j :| 0 <= j < |s| && s[j] == e;
        assert s[..|s| - 1][j] == e;
      }
      MapIEContains(s[..|s| - 1], e);
    }
  }

  /** The groups together hold one tuple per registered entry. */
  lemma {:induction false} GenerateCountsEveryEntry(reg: Store)
    requires Generate(reg).Some?
    ensures SumBy(Generate(reg).value.0, GroupSize) == |reg|
  {
    var sorted := SortBy(reg, NameOf);
    CollectCount(sorted);
    SumBySort(Collect(sorted), GroupKey, GroupSize);
  }
}

=== FILE: mutual.dfy ===
/** `process_mutual_reference_nodes`, run on one resolved doctree: the `mutual_ref`
    nodes are grouped by `ids[0]` in document order; in every group with at least two
    nodes the first two are renamed `<id>-1` / `<id>-2` and linked to each other. */
module Mutual {
  import opened Outcomes
  import opened Nodes

  /** The warnings the pass emits: a group with more than two nodes (still paired),
      and a group with a single node (left alone). */
  datatype MutualWarning = MoreThanTwoUses(id: string) | NoPair(id: string)

  /** Every `mutual_ref` node has an id, as the role creates it (`ids=[anchor]`). */
  predicate WellFormed(doc: Doctree)
  {
    forall i :: 0 <= i < |doc| && doc[i].kind == MutualRef ==> |doc[i].ids| > 0
  }

  /** `n` is a `mutual_ref` node whose first id is `k`. */
  predicate InGroup(n: Node, k: string)
  {
    n.kind == MutualRef && |n.ids| > 0 && n.ids[0] == k
  }

  /** Positions below `hi` of the nodes of group `k`, in document order. */
  function Positions(doc: Doctree, k: string, hi: nat): (r: seq<nat>)
    requires hi <= |doc|
    ensures forall t :: 0 <= t < |r| ==> r[t] < hi && InGroup(doc[r[t]], k)
  {
    if hi == 0 then []
    else Positions(doc, k, hi - 1) + (if InGroup(doc[hi - 1], k) then [hi - 1] else [])
  }

  /** `Positions` is ascending and misses no member of the group. */
  lemma {:induction false} PositionsFacts(doc: Doctree, k: string, hi: nat)
    requires hi <= |doc|
    ensures var r := Positions(doc, k, hi);
      && (forall t, u :: 0 <= t < u < |r| ==> r[t] < r[u])
      && (forall j :: 0 <= j < hi && InGroup(doc[j], k) ==> j in r)
  {
    if hi > 0 {
      PositionsFacts(doc, k, hi - 1);
      var r' := Positions(doc, k, hi - 1);
      var r := Positions(doc, k, hi);
      assert forall t :: 0 <= t < |r'| ==> r[t] == r'[t];
    }
  }

  /** The group keys below `hi` in order of first appearance: the key order of the
      `paired_nodes` dict. */
  function Keys(doc: Doctree, hi: nat): seq<string>
    requires hi <= |doc|
  {
    if hi == 0 then []
    else
      var ks := Keys(doc, hi - 1);
      var n := doc[hi - 1];
      if n.kind == MutualRef && |n.ids| > 0 && n.ids[0] !in ks then ks + [n.ids[0]] else ks
  }

  /** `Keys` has no repetition. */
  lemma {:induction false} KeysDistinct(doc: Doctree, hi: nat)
    requires hi <= |doc|
    ensures forall a, b :: 0 <= a < b < |Keys(doc, hi)| ==> Keys(doc, hi)[a] != Keys(doc, hi)[b]
  {
    if hi > 0 {
      KeysDistinct(doc, hi - 1);
    }
  }

  /** `Keys` holds exactly the keys of the groups seen. */
  lemma {:induction false} KeysComplete(doc: Doctree, hi: nat, k: string)
    requires hi <= |doc|
    ensures k in Keys(doc, hi) <==> exists j :: 0 <= j < hi && InGroup(doc[j], k)
  {
    if hi > 0 {
      KeysComplete(doc, hi - 1, k);
      if k in Keys(doc, hi - 1) {
        var j :| 0 <= j < hi - 1 && InGroup(doc[j], k);
        assert 0 <= j < hi && InGroup(doc[j], k);
      }
    }
  }

  lemma {:induction false} AbsentKeyHasNoPositions(doc: Doctree, k: string, hi: nat)
    requires hi <= |doc|
    requires k !in Keys(doc, hi)
    ensures Positions(doc, k, hi) == []
  {
    if hi > 0 {
      assert Keys(doc, hi - 1) <= Keys(doc, hi);
      assert k !in Keys(doc, hi - 1);
      AbsentKeyHasNoPositions(doc, k, hi - 1);
    }
  }

  /** The node renamed to `own` and linked (refid and backref) to `other`. */
  function Wire(n: Node, own: string, other: string): Node
    requires |n.ids| > 0
  {
    n.(ids := [own] + n.ids[1..], refid := Some(other), backrefs := n.backrefs + [other])
  }

  /** What the pass makes of the node at position `i`, defined per node: the first two
      members of a group of two or more are wired to each other, every other node is
      unchanged. */
  function PairedNode(doc: Doctree, i: nat): Node
    requires i < |doc|
  {
    var n := doc[i];
    if n.kind != MutualRef || |n.ids| == 0 then n
    else
      var k := n.ids[0];
      var ps := Positions(doc, k, |doc|);
      if |ps| < 2 then n
      else if i == ps[0] then Wire(n, k + "-1", k + "-2")
      else if i == ps[1] then Wire(n, k + "-2", k + "-1")
      else n
  }

  function WarningFor(doc: Doctree, k: string): seq<MutualWarning>
  {
    var size := |Positions(doc, k, |doc|)|;
    if size > 2 then [MoreThanTwoUses(k)] else if size < 2 then [NoPair(k)] else []
  }

  /** The warnings for the groups `ks`, in that order. */
  function Warnings(doc: Doctree, ks: seq<string>): seq<MutualWarning>
  {
    if ks == [] then [] else Warnings(doc, ks[..|ks| - 1]) + WarningFor(doc, ks[|ks| - 1])
  }

  /** The first loop of `process_mutual_reference_nodes`: the `paired_nodes` dict,
      as its key order `order` and its position lists `groups`. */
  method GroupMutualNodes(doc: Doctree) returns (order: seq<string>, groups: map<string, seq<nat>>)
    requires WellFormed(doc)
    ensures order == Keys(doc, |doc|)
    ensures forall k :: k in groups <==> k in order
    ensures forall k :: k in groups ==> groups[k] == Positions(doc, k, |doc|)
  {
    order := [];
    groups := map[];
    var i := 0;
    while i < |doc|
      invariant 0 <= i <= |doc|
      invariant order == Keys(doc, i)
      invariant forall k :: k in groups <==> k in order
      invariant forall k :: k in groups ==> groups[k] == Positions(doc, k, i)
    {
      if doc[i].kind == MutualRef {
        var k := doc[i].ids[0];
        if k in groups {
          groups := groups[k := groups[k] + [i]];
        } else {
          AbsentKeyHasNoPositions(doc, k, i);
          groups := groups[k := [i]];
          order := order + [k];
        }
      }
      i := i + 1;
    }
  }

  /** `out` holds the pass's result for the nodes of the groups in `done` and the
      original node everywhere else. */
  predicate Agrees(doc: Doctree, out: Doctree, done: seq<string>)
  {
    && |out| == |doc|
    && forall j :: 0 <= j < |doc| ==>
         out[j] == (if doc[j].kind == MutualRef && |doc[j].ids| > 0 && doc[j].ids[0] in done
                    then PairedNode(doc, j) else doc[j])
  }

  /** Wiring the first two nodes of group `k` extends the agreement to `k`. */
  lemma {:induction false} GroupStep(doc: Doctree, out: Doctree, done: seq<string>, k: string, out': Doctree)
    requires Agrees(doc, out, done) && k !in done
    requires
      var ps := Positions(doc, k, |doc|);
      if |ps| < 2 then out' == out
      else out' == out[ps[0] := Wire(doc[ps[0]], k + "-1", k + "-2")][ps[1] := Wire(doc[ps[1]], k + "-2", k + "-1")]
    ensures Agrees(doc, out', done + [k])
  {
    var ps := Positions(doc, k, |doc|);
    PositionsFacts(doc, k, |doc|);
    forall j | 0 <= j < |doc|
      ensures out'[j] == (if doc[j].kind == MutualRef && |doc[j].ids| > 0 && doc[j].ids[0] in done + [k]
                          then PairedNode(doc, j) else doc[j])
    {
      if InGroup(doc[j], k) {
        assert out[j] == doc[j];
      }
    }
  }

  /** The body of the second loop for the group `k` whose nodes sit at `pair`: warn
      when it is not a pair, and unless it is a lone node, rename and cross-link its
      first two nodes. */
  method WireGroup(doc: Doctree, out: Doctree, done: seq<string>, k: string, pair: seq<nat>)
    returns (out': Doctree, warning: seq<MutualWarning>)
    requires Agrees(doc, out, done) && k !in done
    requires pair == Positions(doc, k, |doc|)
    ensures Agrees(doc, out', done + [k])
    ensures warning == WarningFor(doc, k)
  {
    PositionsFacts(doc, k, |doc|);
    out' := out;
    warning := [];
    if |pair| > 2 {
      warning := [MoreThanTwoUses(k)];
    } else if |pair| < 2 {
      warning := [NoPair(k)];
      GroupStep(doc, out, done, k, out');
      return;
    }
    var p1, p2 := pair[0], pair[1];
    assert InGroup(doc[p1], k) && InGroup(doc[p2], k);
    assert out[p1] == doc[p1] && out[p2] == doc[p2];
    var id1 := out'[p1].ids[0] + "-1";
    var id2 := out'[p2].ids[0] + "-2";
    out' := out'[p1 := Wire(out'[p1], id1, id2)];
    out' := out'[p2 := Wire(out'[p2], id2, id1)];
    GroupStep(doc, out, done, k, out');
  }

  /** The next key of the second loop is new: the keys before it are exactly the
      prefix, and none of them equals it. */
  lemma {:induction false} NextKeyFresh(doc: Doctree, g: nat)
    requires g < |Keys(doc, |doc|)|
    ensures var order := Keys(doc, |doc|);
      order[..g + 1] == order[..g] + [order[g]] && order[g] !in order[..g]
  {
    var order := Keys(doc, |doc|);
    KeysDistinct(doc, |doc|);
    assert order[..g + 1] == order[..g] + [order[g]];
    forall a | 0 <= a < g
      ensures order[..g][a] != order[g]
    {
      assert order[..g][a] == order[a];
    }
  }

  /** Once every group has been handled, each node is what `PairedNode` says. */
  lemma {:induction false} AgreesEverywhere(doc: Doctree, out: Doctree)
    requires WellFormed(doc) && Agrees(doc, out, Keys(doc, |doc|))
    ensures |out| == |doc|
    ensures forall i :: 0 <= i < |doc| ==> out[i] == PairedNode(doc, i)
  {
    forall i | 0 <= i < |doc|
      ensures out[i] == PairedNode(doc, i)
    {
      if doc[i].kind == MutualRef {
        KeysComplete(doc, |doc|, doc[i].ids[0]);
        assert InGroup(doc[i], doc[i].ids[0]);
      }
    }
  }

  /** `process_mutual_reference_nodes`: agrees node by node with `PairedNode` and
      warns about every group that is not a pair, in key order. */
  method ProcessMutualReferenceNodes(doc: Doctree) returns (out: Doctree, warnings: seq<MutualWarning>)
    requires WellFormed(doc)
    ensures |out| == |doc|
    ensures forall i :: 0 <= i < |doc| ==> out[i] == PairedNode(doc, i)
    ensures warnings == Warnings(doc, Keys(doc, |doc|))
  {
    var order, groups := GroupMutualNodes(doc);
    out := doc;
    warnings := [];
    var g := 0;
    while g < |order|
      invariant 0 <= g <= |order|
      invariant warnings == Warnings(doc, order[..g])
      invariant Agrees(doc, out, order[..g])
    {
      var k := order[g];
      NextKeyFresh(doc, g);
      assert Warnings(doc, order[..g + 1]) == Warnings(doc, order[..g]) + WarningFor(doc, k);
      var warning;
      out, warning := WireGroup(doc, out, order[..g], k, groups[k]);
      warnings := warnings + warning;
      g := g + 1;
    }
    assert order[..g] == order;
    AgreesEverywhere(doc, out);
  }

  /** In a group of two or more, the first two nodes become `<id>-1` and `<id>-2`, and
      each one's `refid` and newly added backref is the other's new id. */
  lemma PairedNodesLinkEachOther(doc: Doctree, k: string)
    requires |Positions(doc, k, |doc|)| >= 2
    ensures
      var p := Positions(doc, k, |doc|)[0];
      var q := Positions(doc, k, |doc|)[1];
      var np := PairedNode(doc, p);
      var nq := PairedNode(doc, q);
      && |np.ids| > 0 && |nq.ids| > 0
      && np.ids[0] == k + "-1" && nq.ids[0] == k + "-2"
      && np.refid == Some(nq.ids[0]) && nq.refid == Some(np.ids[0])
      && np.backrefs == doc[p].backrefs + [nq.ids[0]]
      && nq.backrefs == doc[q].backrefs + [np.ids[0]]
      && np.ids[1..] == doc[p].ids[1..] && nq.ids[1..] == doc[q].ids[1..]
  {
    PositionsFacts(doc, k, |doc|);
  }

  /** Only the first two members of a group of two or more change: lone nodes and
      nodes beyond the second are left exactly as they were. */
  lemma PairedNodeChangesOnlyPairs(doc: Doctree, i: nat)
    requires i < |doc|
    requires PairedNode(doc, i) != doc[i]
    ensures doc[i].kind == MutualRef && |doc[i].ids| > 0
    ensures
      var ps := Positions(doc, doc[i].ids[0], |doc|);
      |ps| >= 2 && (i == ps[0] || i == ps[1])
  {
  }
}

=== FILE: nodes.dfy ===
/** The docutils nodes the extension creates and rewrites, as plain records.
    A doctree is the sequence of its nodes in document order, which is the order
    `doctree.findall(...)` visits them in. */
module Nodes {
  import opened Outcomes

  /** The node classes: `mutual_ref`, `reference_target`, `backlink`, `id_reference`,
      the plain `reference` built by Sphinx, and every other node of the tree. */
  datatype Kind = MutualRef | ReferenceTarget | Backlink | IdReference | Reference | OtherNode

  /** A node with the attributes the extension reads or writes. `text` is the node's
      text content (the `text=` argument, or the text of the child a reference wraps);
      an absent attribute is `None`. */
  datatype Node = Node(
    kind: Kind,
    text: string,
    ids: seq<string>,
    refid: Option<string>,
    refuri: Option<string>,
    reftitle: Option<string>,
    title: Option<string>,
    backrefs: seq<string>,
    classes: seq<string>)

  type Doctree = seq<Node>

  /** `node.add_backref(id)`. */
  function AddBackref(n: Node, id: string): (r: Node)
    ensures r.backrefs == n.backrefs + [id]
    ensures r.(backrefs := n.backrefs) == n
  {
    n.(backrefs := n.backrefs + [id])
  }
}

=== FILE: order.dfy ===
/** Python's ordering of `str` values and a stable sort keyed by a string, as
    `sorted(xs, key=...)` does it. */
module Order {

  /** `a < b` on Python strings: lexicographic by code point, a proper prefix first. */
  predicate Less(a: string, b: string)
  {
    if a == [] then b != []
    else if b == [] then false
    else if a[0] != b[0] then a[0] < b[0]
    else Less(a[1..], b[1..])
  }

  /** `a <= b` on Python strings. */
  predicate Le(a: string, b: string)
  {
    !Less(b, a)
  }

  lemma {:induction false} LessIrreflexive(a: string)
    ensures !Less(a, a)
  {
    if a != [] {
      LessIrreflexive(a[1..]);
    }
  }

  lemma {:induction false} LessTransitive(a: string, b: string, c: string)
    requires Less(a, b) && Less(b, c)
    ensures Less(a, c)
  {
    if a != [] && b != [] && c != [] && a[0] == b[0] && b[0] == c[0] {
      LessTransitive(a[1..], b[1..], c[1..]);
    }
  }

  /** Any two strings are comparable: exactly the total order Python uses. */
  lemma {:induction false} LessTrichotomy(a: string, b: string)
    ensures Less(a, b) || a == b || Less(b, a)
  {
    if a != [] && b != [] && a[0] == b[0] {
      LessTrichotomy(a[1..], b[1..]);
      if a[1..] == b[1..] {
        assert a == [a[0]] + a[1..];
        assert b == [b[0]] + b[1..];
      }
    }
  }

  lemma LessAsymmetric(a: string, b: string)
    requires Less(a, b)
    ensures Le(a, b)
  {
    if Less(b, a) {
      LessTransitive(a, b, a);
      LessIrreflexive(a);
    }
  }

  lemma LessLe(c: string, a: string, b: string)
    requires Less(c, a) && Le(a, b)
    ensures Less(c, b)
  {
    LessTrichotomy(a, b);
    if a != b {
      LessTransitive(c, a, b);
    }
  }

  lemma LeTransitive(a: string, b: string, c: string)
    requires Le(a, b) && Le(b, c)
    ensures Le(a, c)
  {
    if Less(c, a) {
      LessLe(c, a, b);
    }
  }

  /** Le on two keys that are not equal is strict. */
  lemma LeDistinct(a: string, b: string)
    requires Le(a, b) && a != b
    ensures Less(a, b)
  {
    LessTrichotomy(a, b);
  }

  /** Non-decreasing keys: what `sorted(xs, key=key)` guarantees. */
  predicate SortedBy<T>(s: seq<T>, key: T -> string)
  {
    forall i, j :: 0 <= i < j < |s| ==> Le(key(s[i]), key(s[j]))
  }

  /** Strictly increasing keys. */
  predicate StrictlySortedBy<T>(s: seq<T>, key: T -> string)
  {
    forall i, j :: 0 <= i < j < |s| ==> Less(key(s[i]), key(s[j]))
  }

  /** Inserts `x` before the first element whose key is not smaller than its own. */
  function Insert<T>(x: T, s: seq<T>, key: T -> string): (r: seq<T>)
    ensures multiset(r) == multiset(s) + multiset{x}
    ensures |r| == |s| + 1
  {
    if s == [] || Le(key(x), key(s[0])) then [x] + s
    else
      assert s == [s[0]] + s[1..];
      [s[0]] + Insert(x, s[1..], key)
  }

  lemma {:induction false} InsertSorted<T>(x: T, s: seq<T>, key: T -> string)
    requires SortedBy(s, key)
    ensures SortedBy(Insert(x, s, key), key)
  {
    if s == [] || Le(key(x), key(s[0])) {
      var r := [x] + s;
      forall j | 0 < j < |r|
        ensures Le(key(x), key(r[j]))
      {
        if j > 1 {
          LeTransitive(key(x), key(s[0]), key(s[j - 1]));
        }
      }
    } else {
      InsertSorted(x, s[1..], key);
      var t := Insert(x, s[1..], key);
      var r := [s[0]] + t;
      LessTrichotomy(key(x), key(s[0]));
      LessAsymmetric(key(s[0]), key(x));
      forall j | 0 <= j < |t|
        ensures Le(key(s[0]), key(t[j]))
      {
        assert t[j] in multiset(t);
        if t[j] != x {
          assert t[j] in multiset(s[1..]);
          var k :| 0 <= k < |s[1..]| && s[1..][k] == t[j];
          assert s[k + 1] == t[j];
        }
      }
      assert forall i, j :: 0 <= i < j < |r| && i > 0 ==> r[i] == t[i - 1] && r[j] == t[j - 1];
    }
  }

  /** `sorted(s, key=key)`: an insertion sort that keeps equal keys in input order. */
  function SortBy<T>(s: seq<T>, key: T -> string): (r: seq<T>)
    ensures multiset(r) == multiset(s)
    ensures |r| == |s|
    ensures SortedBy(r, key)
  {
    if s == [] then []
    else
      var t := SortBy(s[1..], key);
      InsertSorted(s[0], t, key);
      assert s == [s[0]] + s[1..];
      Insert(s[0], t, key)
  }

  /** The elements of `s` whose key is `k`, in order. */
  function KeepKey<T>(s: seq<T>, key: T -> string, k: string): seq<T>
  {
    if s == [] then [] else (if key(s[0]) == k then [s[0]] else []) + KeepKey(s[1..], key, k)
  }

  lemma KeepKeyCons<T>(y: T, t: seq<T>, key: T -> string, k: string)
    ensures KeepKey([y] + t, key, k) == (if key(y) == k then [y] else []) + KeepKey(t, key, k)
  {
    assert ([y] + t)[0] == y && ([y] + t)[1..] == t;
  }

  /** Moving `x` past a first element whose key differs from `x`'s or from `k` keeps
      what a filter on `k` sees. */
  lemma KeepKeySwap<T>(x: T, y: T, t: seq<T>, key: T -> string, k: string)
    requires key(x) != k || key(y) != k
    ensures (if key(y) == k then [y] else []) + ((if key(x) == k then [x] else []) + t)
         == (if key(x) == k then [x] else []) + ((if key(y) == k then [y] else []) + t)
  {
  }

  lemma {:induction false} InsertKeepKey<T>(x: T, s: seq<T>, key: T -> string, k: string)
    ensures KeepKey(Insert(x, s, key), key, k)
         == (if key(x) == k then [x] else []) + KeepKey(s, key, k)
  {
    if s == [] || Le(key(x), key(s[0])) {
      assert Insert(x, s, key) == [x] + s;
      KeepKeyCons(x, s, key, k);
    } else {
      var t := Insert(x, s[1..], key);
      assert Insert(x, s, key) == [s[0]] + t;
      InsertKeepKey(x, s[1..], key, k);
      KeepKeyCons(s[0], t, key, k);
      KeepKeyCons(s[0], s[1..], key, k);
      assert [s[0]] + s[1..] == s;
      if key(x) == k {
        LessIrreflexive(k);
      }
      KeepKeySwap(x, s[0], KeepKey(s[1..], key, k), key, k);
    }
  }

  /** The sort is stable: the elements sharing any one key keep their input order. */
  lemma {:induction false} SortByStable<T>(s: seq<T>, key: T -> string, k: string)
    ensures KeepKey(SortBy(s, key), key, k) == KeepKey(s, key, k)
  {
    if s != [] {
      SortByStable(s[1..], key, k);
      InsertKeepKey(s[0], SortBy(s[1..], key), key, k);
    }
  }

  /** No two elements share a key. */
  predicate DistinctKeys<T>(s: seq<T>, key: T -> string)
  {
    forall i, j :: 0 <= i < j < |s| ==> key(s[i]) != key(s[j])
  }

  /** Every element of `Insert(x, s, key)` is `x` or some `s[k]`. */
  lemma InsertedFrom<T>(x: T, s: seq<T>, key: T -> string, j: nat) returns (k: nat)
    requires j < |s| + 1
    ensures Insert(x, s, key)[j] == x || (k < |s| && s[k] == Insert(x, s, key)[j])
  {
    var t := Insert(x, s, key);
    assert t[j] in multiset(t);
    k := 0;
    if t[j] != x {
      assert t[j] in multiset(s);
      k :| 0 <= k < |s| && s[k] == t[j];
    }
  }

  lemma {:induction false} InsertDistinct<T>(x: T, s: seq<T>, key: T -> string)
    requires DistinctKeys(s, key)
    requires forall i :: 0 <= i < |s| ==> key(s[i]) != key(x)
    ensures DistinctKeys(Insert(x, s, key), key)
  {
    if s != [] && !Le(key(x), key(s[0])) {
      var t := Insert(x, s[1..], key);
      InsertDistinct(x, s[1..], key);
      forall j | 0 <= j < |t|
        ensures key(t[j]) != key(s[0])
      {
        var k := InsertedFrom(x, s[1..], key, j);
        if t[j] != x {
          assert s[k + 1] == t[j];
        }
      }
      var r := [s[0]] + t;
      assert forall i, j :: 0 <= i < j < |r| && i > 0 ==> r[i] == t[i - 1] && r[j] == t[j - 1];
    }
  }

  /** Sorting never makes two elements share a key. */
  lemma {:induction false} SortByDistinct<T>(s: seq<T>, key: T -> string)
    requires DistinctKeys(s, key)
    ensures DistinctKeys(SortBy(s, key), key)
  {
    if s != [] {
      var t := SortBy(s[1..], key);
      SortByDistinct(s[1..], key);
      forall i | 0 <= i < |t|
        ensures key(t[i]) != key(s[0])
      {
        assert t[i] in multiset(t);
        assert t[i] in multiset(s[1..]);
        var k :| 0 <= k < |s[1..]| && s[1..][k] == t[i];
        assert s[k + 1] == t[i];
      }
      InsertDistinct(s[0], t, key);
    }
  }

  /** A sequence sorted by its keys whose keys are pairwise different is strictly sorted. */
  lemma SortedDistinctIsStrict<T>(s: seq<T>, key: T -> string)
    requires SortedBy(s, key)
    requires DistinctKeys(s, key)
    ensures StrictlySortedBy(s, key)
  {
    forall i, j | 0 <= i < j < |s|
      ensures Less(key(s[i]), key(s[j]))
    {
      LeDistinct(key(s[i]), key(s[j]));
    }
  }

  /** Sum of a measure over a sequence. */
  function SumBy<T>(s: seq<T>, m: T -> nat): nat
  {
    if s == [] then 0 else m(s[0]) + SumBy(s[1..], m)
  }

  lemma {:induction false} SumByInsert<T>(x: T, s: seq<T>, key: T -> string, m: T -> nat)
    ensures SumBy(Insert(x, s, key), m) == m(x) + SumBy(s, m)
  {
    if s == [] || Le(key(x), key(s[0])) {
      var r := [x] + s;
      assert r[1..] == s;
    } else {
      SumByInsert(x, s[1..], key, m);
      var r := [s[0]] + Insert(x, s[1..], key);
      assert r[1..] == Insert(x, s[1..], key);
    }
  }

  /** Sorting moves elements around but keeps any total over them. */
  lemma {:induction false} SumBySort<T>(s: seq<T>, key: T -> string, m: T -> nat)
    ensures SumBy(SortBy(s, key), m) == SumBy(s, m)
  {
    if s != [] {
      SumBySort(s[1..], key, m);
      SumByInsert(s[0], SortBy(s[1..], key), key, m);
    }
  }
}

=== FILE: outcomes.dfy ===
/** Failure-compatible wrappers used across the model. */
module Outcomes {

  /** An optional value: the Python `None` / value convention. */
  datatype Option<+T> = None | Some(value: T)

  /** The outcome of an operation that can raise: `Err` stands for the exception. */
  datatype Result<+T, +E> = Ok(value: T) | Err(error: E)
}

=== FILE: pipeline.dfy ===
/** The two `doctree-resolved` handlers in the order `setup` connects them, and how the
    pieces fit together across the registry, resolution and the backlink pass. */
module Pipeline {
  import opened Outcomes
  import opened Strings
  import opened Nodes
  import opened Registry
  import opened Xref
  import Mutual
  import Backlinks

  /** What the mutual-reference pass makes of a doctree. */
  function PairAll(doc: Doctree): (r: Doctree)
    ensures |r| == |doc| && forall i :: 0 <= i < |doc| ==> r[i] == Mutual.PairedNode(doc, i)
  {
    seq(|doc|, i requires 0 <= i < |doc| => Mutual.PairedNode(doc, i))
  }

  /** Pairing rewrites only `mutual_ref` nodes and never changes a kind, so it leaves
      everything the backlink pass reads as it was. */
  lemma PairingKeepsLinks(doc: Doctree)
    requires Backlinks.WellFormed(doc)
    ensures Backlinks.SameLinks(doc, PairAll(doc)) && Backlinks.WellFormed(PairAll(doc))
  {
    var p := PairAll(doc);
    forall i | 0 <= i < |doc|
      ensures p[i].kind == doc[i].kind && (doc[i].kind != MutualRef ==> p[i] == doc[i])
    {
    }
  }

  /** Only backlink nodes gain backrefs. */
  lemma NoIncomingUnlessBacklink(doc: Doctree, i: nat)
    requires Backlinks.WellFormed(doc)
    ensures i < |doc| && doc[i].kind != Backlink ==> Backlinks.Incoming(doc, i, |doc|) == []
  {
    if Backlinks.Incoming(doc, i, |doc|) != [] {
      Backlinks.OnlyWinningBacklinkGains(doc, i, |doc|);
    }
  }

  /** The backlink pass run on the paired doctree leaves each paired node as pairing
      made it and every other node as the pass would on the original doctree. */
  lemma PassesCompose(doc: Doctree, i: nat)
    requires Backlinks.WellFormed(doc) && i < |doc|
    ensures doc[i].kind == MutualRef ==> Backlinks.AggregateAll(PairAll(doc))[i] == Mutual.PairedNode(doc, i)
    ensures doc[i].kind != MutualRef ==> Backlinks.AggregateAll(PairAll(doc))[i] == Backlinks.Aggregated(doc, i)
  {
    var paired := PairAll(doc);
    PairingKeepsLinks(doc);
    Backlinks.SameLinksSameIncoming(paired, doc, i, |doc|);
    NoIncomingUnlessBacklink(paired, i);
    assert paired[i].kind == doc[i].kind;
    if doc[i].kind == MutualRef {
      assert Backlinks.Incoming(paired, i, |doc|) == [];
      assert paired[i].backrefs + [] == paired[i].backrefs;
    } else {
      assert paired[i] == doc[i];
    }
  }

  /** `doctree-resolved` with the corrected backlink pass: the mutual pass, then the
      backlink pass on its output. The two do not interfere: paired nodes come out as the
      mutual pass leaves them, every other node as the backlink pass would leave it on
      the original doctree, and the backlink warnings are those of the original doctree. */
  method ResolveDoctree(doc: Doctree)
    returns (out: Doctree, mutualWarnings: seq<Mutual.MutualWarning>, backlinkWarnings: seq<Backlinks.BacklinkWarning>)
    requires Mutual.WellFormed(doc) && Backlinks.WellFormed(doc)
    ensures |out| == |doc|
    ensures forall i :: 0 <= i < |doc| && doc[i].kind == MutualRef ==> out[i] == Mutual.PairedNode(doc, i)
    ensures forall i :: 0 <= i < |doc| && doc[i].kind != MutualRef ==> out[i] == Backlinks.Aggregated(doc, i)
    ensures mutualWarnings == Mutual.Warnings(doc, Mutual.Keys(doc, |doc|))
    ensures backlinkWarnings == Backlinks.Dangling(doc, |doc|)
  {
    var paired;
    paired, mutualWarnings := Mutual.ProcessMutualReferenceNodes(doc);
    assert paired == PairAll(doc);
    PairingKeepsLinks(doc);
    out, backlinkWarnings := Backlinks.ProcessBacklinkNodes(paired);
    Backlinks.SameLinksSameDangling(paired, doc, |doc|);
    forall i | 0 <= i < |doc|
      ensures doc[i].kind == MutualRef ==> out[i] == Mutual.PairedNode(doc, i)
      ensures doc[i].kind != MutualRef ==> out[i] == Backlinks.Aggregated(doc, i)
    {
      PassesCompose(doc, i);
    }
  }

  /** The backlink half of `doctree-resolved` as the handler is written, after the
      mutual pass: it raises exactly when the original doctree holds a reference that
      reaches no backlink here and has no `refid` (a reference into another
      document never has one); otherwise it leaves the same nodes as the corrected pipeline and
      warns once per dangling reference. */
  function ResolveDoctreeAsWritten(doc: Doctree): (r: Result<Backlinks.Pass, Backlinks.Crash>)
    requires Mutual.WellFormed(doc) && Backlinks.WellFormed(doc)
    ensures r.Err? <==> exists j :: 0 <= j < |doc| && Backlinks.AbortsBuild(doc, j)
    ensures r.Ok? ==> |r.value.out| == |doc|
    ensures r.Ok? ==> forall i :: 0 <= i < |doc| && doc[i].kind == MutualRef ==> r.value.out[i] == Mutual.PairedNode(doc, i)
    ensures r.Ok? ==> forall i :: 0 <= i < |doc| && doc[i].kind != MutualRef ==> r.value.out[i] == Backlinks.Aggregated(doc, i)
    ensures r.Ok? ==> r.value.warnings == Backlinks.WrittenDangling(doc, |doc|)
  {
    PairingKeepsLinks(doc);
    var paired := PairAll(doc);
    assert forall j :: 0 <= j < |doc| ==> (Backlinks.AbortsBuild(paired, j) <==> Backlinks.AbortsBuild(doc, j)) by {
      forall j | 0 <= j < |doc|
        ensures Backlinks.AbortsBuild(paired, j) <==> Backlinks.AbortsBuild(doc, j)
      {
        Backlinks.SameLinksSameAborts(paired, doc, j);
      }
    }
    Backlinks.SameLinksSameWrittenDangling(paired, doc, |doc|);
    assert forall i :: 0 <= i < |doc| ==>
      (doc[i].kind == MutualRef ==> Backlinks.AggregateAll(paired)[i] == Mutual.PairedNode(doc, i))
      && (doc[i].kind != MutualRef ==> Backlinks.AggregateAll(paired)[i] == Backlinks.Aggregated(doc, i)) by {
      forall i | 0 <= i < |doc|
        ensures doc[i].kind == MutualRef ==> Backlinks.AggregateAll(paired)[i] == Mutual.PairedNode(doc, i)
        ensures doc[i].kind != MutualRef ==> Backlinks.AggregateAll(paired)[i] == Backlinks.Aggregated(doc, i)
      {
        PassesCompose(doc, i);
      }
    }
    Backlinks.ProcessBacklinkNodesAsWritten(paired)
  }

  /** A resolved backlink reference reaches its backlink: when `resolve_xref` picks a
      backlink target whose anchor names a backlink node of the doctree the reference
      ends up in, the backlink pass attaches the reference to that node, whether the
      link was written as `refid` (same document) or as the fragment of `refuri`. */
  lemma ResolvedReferenceAttaches(doc: Doctree, j: nat, reg: Store, relUri: RelativeUri,
                                  fromdoc: string, target: string, child: string, serial: nat)
    requires j < |doc| && Some(doc[j]) == ResolveXref(reg, relUri, fromdoc, target, child, serial)
    requires Winner(reg, target).Some?
    requires var e := reg[Winner(reg, target).value];
      e.typ == BacklinkCode && e.anchor != "" && '#' !in e.anchor && Backlinks.Lookup(doc, e.anchor).Some?
    ensures Backlinks.Attaches(doc, j, Backlinks.Lookup(doc, reg[Winner(reg, target).value].anchor).value)
  {
    var e := reg[Winner(reg, target).value];
    var n := doc[j];
    assert LinkedId(n) == Some(e.anchor);
    if n.refid.None? {
      assert n.refuri.Some? && Fragment(n.refuri.value) == e.anchor;
    }
  }

  /** After the backlink pass, a reference resolved to a backlink target is listed
      among the backrefs of the backlink node that carries the target's anchor: the
      role's anchor, the reference's own id and the pass meet up. */
  lemma ReferenceReachesBacklink(doc: Doctree, j: nat, b: nat, reg: Store, relUri: RelativeUri,
                                 fromdoc: string, target: string, child: string, serial: nat)
    requires Backlinks.WellFormed(doc) && j < |doc|
    requires Some(doc[j]) == ResolveXref(reg, relUri, fromdoc, target, child, serial)
    requires Winner(reg, target).Some?
    requires var e := reg[Winner(reg, target).value];
      e.typ == BacklinkCode && e.anchor != "" && '#' !in e.anchor && Backlinks.Lookup(doc, e.anchor) == Some(b)
    ensures b < |doc|
    ensures reg[Winner(reg, target).value].anchor + "-ref" + NatToString(serial) in Backlinks.AggregateAll(doc)[b].backrefs
  {
    ResolvedReferenceAttaches(doc, j, reg, relUri, fromdoc, target, child, serial);
    Backlinks.AttachedIdIsIncoming(doc, j, b, |doc|);
  }

  /** The whole path for one backlink: registering a `backlink` target and then resolving
      its signature from the same document, after any registrations that lookup cannot
      see, yields an `id_reference` linked by `refid` to the new anchor, with an id of
      its own derived from that anchor. */
  lemma BacklinkRoundTrip(reg: Store, docname: string, signature: string, later: Store,
                          relUri: RelativeUri, child: string, serial: nat)
    requires forall i :: 0 <= i < |later| ==> !Visible(later[i], signature)
    ensures var added := AddReferenceTarget(reg, docname, signature, BackLink);
      var r := ResolveXref(added.store + later, relUri, docname, signature, child, serial);
      && r.Some? && r.value.kind == IdReference
      && r.value.refid == Some(added.anchor) && r.value.refuri.None?
      && r.value.ids == [added.anchor + "-ref" + NatToString(serial)]
  {
    var added := AddReferenceTarget(reg, docname, signature, BackLink);
    var st := added.store;
    ResolveIgnoresInvisible(st, later, relUri, docname, signature, child, serial);
    assert Visible(st[|reg|], signature);
    assert st[..|st| - 1] == reg;
    assert Winner(st, signature) == Some(|reg|);
  }
}

=== FILE: registry.dfy ===
/** The domain's data: one list of 6-tuples (name, dispname, type, docname, anchor,
    priority) that every target and mutual-reference role appends to, in read order. */
module Registry {
  import opened Strings

  /** One registered tuple. `dispname` is the signature; `typ` is the role code. */
  datatype Entry = Entry(
    name: string,
    dispname: string,
    typ: string,
    docname: string,
    anchor: string,
    priority: int)

  type Store = seq<Entry>

  /** The two target roles and their codes: `target` ("looseref") and `backlink`. */
  datatype TargetRole = LooseRef | BackLink

  function Code(role: TargetRole): (r: string)
    ensures r != "mutual"
  {
    match role
    case LooseRef => "looseref"
    case BackLink => "backlink"
  }

  const MutualCode: string := "mutual"

  /** The result of a registration: the grown store and the anchor to give the node. */
  datatype Added = Added(store: Store, anchor: string)

  /** `add_mutual_reference`: appends ("mutual.<sig>", sig, "mutual", docname,
      "mutual-<sig>", 0) and returns that anchor. Every use of one signature gets the
      same anchor; nothing counts uses. */
  function AddMutualReference(reg: Store, docname: string, signature: string): (r: Added)
    ensures |r.store| == |reg| + 1 && r.store[..|reg|] == reg
    ensures r.anchor == r.store[|reg|].anchor == MutualCode + "-" + signature
    ensures r.store[|reg|] == Entry(MutualCode + "." + signature, signature, MutualCode, docname, r.anchor, 0)
  {
    var anchor := MutualCode + "-" + signature;
    var store := reg + [Entry(MutualCode + "." + signature, signature, MutualCode, docname, anchor, 0)];
    assert store[..|reg|] == reg;
    Added(store, anchor)
  }

  /** `add_reference_target`: appends ("<code>.<sig>", sig, code, docname,
      "<code>-<sig>", 0) and returns that anchor. */
  function AddReferenceTarget(reg: Store, docname: string, signature: string, role: TargetRole): (r: Added)
    ensures |r.store| == |reg| + 1 && r.store[..|reg|] == reg
    ensures r.anchor == r.store[|reg|].anchor == Code(role) + "-" + signature
    ensures r.store[|reg|] == Entry(Code(role) + "." + signature, signature, Code(role), docname, r.anchor, 0)
  {
    var anchor := Code(role) + "-" + signature;
    var store := reg + [Entry(Code(role) + "." + signature, signature, Code(role), docname, anchor, 0)];
    assert store[..|reg|] == reg;
    Added(store, anchor)
  }

  /** The codes differ in their first letter, so anchors of different roles never
      collide, and within one role the anchor determines the signature. */
  lemma {:induction false} AnchorsIdentifyRoleAndSignature(c1: string, s1: string, c2: string, s2: string)
    requires c1 in {MutualCode, "looseref", "backlink"} && c2 in {MutualCode, "looseref", "backlink"}
    requires c1 + "-" + s1 == c2 + "-" + s2
    ensures c1 == c2 && s1 == s2
  {
    var a1 := c1 + "-" + s1;
    var a2 := c2 + "-" + s2;
    assert a1[0] == c1[0] && a2[0] == c2[0];
    assert c1 == c2;
    assert s1 == a1[|c1| + 1..];
    assert s2 == a2[|c2| + 1..];
  }
}

=== FILE: render.dfy ===
/** The HTML and LaTeX writers' visit/depart functions for backlink and mutual
    reference nodes. Each returns the text it appends to the writer's body. */
module Render {
  import opened Outcomes
  import opened Strings
  import opened Nodes

  /** A keyword argument of `starttag`: a plain value, or a list such as `classes`. */
  datatype AttrValue = Text(text: string) | Words(words: seq<string>)
  datatype Attr = Attr(name: string, value: AttrValue)

  /** `self.starttag(node, tagname, '', **atts)` of the HTML translator, supplied by the
      host: renders an opening tag for the node. */
  type StartTag = (Node, string, seq<Attr>) -> string

  /** `self.idescape(...)` of the LaTeX translator, supplied by the host. */
  type Escape = string -> string

  const InheritStyle: string := "color: inherit; text-decoration: inherit"

  /** `visit_reference_target_node_html`: an anchor styled like the surrounding text,
      opened with the node's classes hidden from `starttag`. */
  function VisitReferenceTargetHtml(node: Node, startTag: StartTag): string
  {
    startTag(node.(classes := []), "a", [Attr("style", Text(InheritStyle))])
  }

  /** `visit_backlink_node_html`: with exactly one backref, an internal link to it;
      otherwise the styled anchor of a reference target. */
  function VisitBacklinkHtml(node: Node, startTag: StartTag): (r: string)
    ensures |node.backrefs| == 1 ==>
      r == startTag(node, "a", [Attr("href", Text("#" + node.backrefs[0])),
                                Attr("classes", Words(["reference", "internal"]))])
    ensures |node.backrefs| != 1 ==> r == startTag(node.(classes := []), "a", [Attr("style", Text(InheritStyle))])
  {
    if |node.backrefs| == 1 then
      startTag(node, "a", [Attr("href", Text("#" + node.backrefs[0])),
                           Attr("classes", Words(["reference", "internal"]))])
    else VisitReferenceTargetHtml(node, startTag)
  }

  /** One linked ordinal marker `<a href=#ref><sub>i</sub></a>`. */
  function HtmlMarker(ref: string, i: nat): string
  {
    "<a href=#" + ref + "><sub>" + NatToString(i) + "</sub></a>"
  }

  /** The markers of `enumerate(refs, start)`. */
  function HtmlMarkers(refs: seq<string>, start: nat): seq<string>
  {
    if refs == [] then [] else [HtmlMarker(refs[0], start)] + HtmlMarkers(refs[1..], start + 1)
  }

  /** Marker `i` links to the `i`-th backref and is labelled with its index. */
  lemma {:induction false} HtmlMarkersAt(refs: seq<string>, start: nat)
    ensures |HtmlMarkers(refs, start)| == |refs|
    ensures forall i :: 0 <= i < |refs| ==> HtmlMarkers(refs, start)[i] == HtmlMarker(refs[i], start + i)
  {
    if refs != [] {
      HtmlMarkersAt(refs[1..], start + 1);
    }
  }

  lemma MarkerOpenLiteral()
    ensures Count('<', "<a href=#") == 1 && Count(',', "<a href=#") == 0
  {
  }

  lemma MarkerSubLiteral()
    ensures Count('<', "><sub>") == 1 && Count(',', "><sub>") == 0
  {
  }

  lemma MarkerCloseLiteral()
    ensures Count('<', "</sub></a>") == 2 && Count(',', "</sub></a>") == 0
  {
  }

  /** Markup in a marker comes only from its fixed text: four tags and no comma. */
  lemma MarkerTextCounts(ref: string, d: string)
    requires Count('<', ref) == 0 && Count(',', ref) == 0 && Count('<', d) == 0 && Count(',', d) == 0
    ensures Count('<', "<a href=#" + ref + "><sub>" + d + "</sub></a>") == 4
    ensures Count(',', "<a href=#" + ref + "><sub>" + d + "</sub></a>") == 0
  {
    MarkerOpenLiteral();
    MarkerSubLiteral();
    MarkerCloseLiteral();
    CountConcat5('<', "<a href=#", ref, "><sub>", d, "</sub></a>");
    CountConcat5(',', "<a href=#", ref, "><sub>", d, "</sub></a>");
  }

  lemma HtmlMarkerCounts(ref: string, i: nat)
    requires '<' !in ref && ',' !in ref
    ensures Count('<', HtmlMarker(ref, i)) == 4
    ensures Count(',', HtmlMarker(ref, i)) == 0
  {
    var d := NatToString(i);
    DigitsFree(i, '<');
    DigitsFree(i, ',');
    CountAbsent('<', d);
    CountAbsent(',', d);
    CountAbsent('<', ref);
    CountAbsent(',', ref);
    MarkerTextCounts(ref, d);
  }

  lemma {:induction false} HtmlMarkersCounts(refs: seq<string>, start: nat)
    requires forall k :: 0 <= k < |refs| ==> '<' !in refs[k] && ',' !in refs[k]
    ensures CountAll('<', HtmlMarkers(refs, start)) == 4 * |refs|
    ensures CountAll(',', HtmlMarkers(refs, start)) == 0
  {
    if refs != [] {
      HtmlMarkerCounts(refs[0], start);
      HtmlMarkersCounts(refs[1..], start + 1);
    }
  }

  /** `depart_backlink_node_html` as written: nothing for no backref, `</a>` for one,
      and for more the comma-joined markers, one per backref in order. */
  function DepartBacklinkHtml(node: Node): (r: string)
    ensures |node.backrefs| == 0 ==> r == ""
    ensures |node.backrefs| == 1 ==> r == "</a>"
    ensures |node.backrefs| > 1 ==> r == Join(",", HtmlMarkers(node.backrefs, 0))
  {
    var refs := node.backrefs;
    if |refs| == 1 then "</a>"
    else if |refs| > 1 then Join(",", HtmlMarkers(refs, 0))
    else ""
  }

  /** With n > 1 backrefs free of markup the output holds exactly n anchors (four tags
      each) separated by n - 1 commas, the i-th linking to backref i with label i. */
  lemma DepartBacklinkHtmlMarkers(node: Node)
    requires |node.backrefs| > 1
    requires forall k :: 0 <= k < |node.backrefs| ==> '<' !in node.backrefs[k] && ',' !in node.backrefs[k]
    ensures Count('<', DepartBacklinkHtml(node)) == 4 * |node.backrefs|
    ensures Count(',', DepartBacklinkHtml(node)) == |node.backrefs| - 1
    ensures var ms := HtmlMarkers(node.backrefs, 0);
      |ms| == |node.backrefs| && forall i :: 0 <= i < |ms| ==> ms[i] == HtmlMarker(node.backrefs[i], i)
  {
    var ms := HtmlMarkers(node.backrefs, 0);
    HtmlMarkersAt(node.backrefs, 0);
    HtmlMarkersCounts(node.backrefs, 0);
    CountJoin('<', ",", ms);
    CountJoin(',', ",", ms);
  }

  /** The text starts by closing an anchor. */
  predicate ClosesAnchor(s: string)
  {
    |s| >= 4 && s[..4] == "</a>"
  }

  /** The written depart leaves the anchor opened by the visit open unless there is
      exactly one backref: with none it emits nothing, with several it starts a new
      anchor inside the open one. */
  lemma DepartBacklinkHtmlLeavesAnchorOpen(node: Node)
    requires |node.backrefs| != 1
    ensures !ClosesAnchor(DepartBacklinkHtml(node))
  {
    if |node.backrefs| > 1 {
      var ms := HtmlMarkers(node.backrefs, 0);
      HtmlMarkersAt(node.backrefs, 0);
      JoinStartsWithFirst(",", ms);
      assert ms[0][..4] == "<a h";
      assert DepartBacklinkHtml(node)[..4] == ms[0][..4];
    }
  }

  /** The depart the visit calls for: always close the anchor, then emit the markers
      when there are several backrefs. */
  function DepartBacklinkHtmlClosed(node: Node): (r: string)
    ensures ClosesAnchor(r)
    ensures r[4..] == if |node.backrefs| == 1 then "" else DepartBacklinkHtml(node)
  {
    var rest := if |node.backrefs| == 1 then "" else DepartBacklinkHtml(node);
    assert ("</a>" + rest)[..4] == "</a>";
    "</a>" + rest
  }

  /** A backlink rendered to HTML around its already rendered content. */
  function RenderBacklinkHtml(node: Node, startTag: StartTag, content: string): (r: string)
    ensures r == VisitBacklinkHtml(node, startTag) + content + DepartBacklinkHtmlClosed(node)
  {
    VisitBacklinkHtml(node, startTag) + content + DepartBacklinkHtmlClosed(node)
  }

  /** Occurrences of `</`, the start of a closing tag. */
  function Closers(s: string): nat
  {
    if |s| < 2 then 0 else (if s[0] == '<' && s[1] == '/' then 1 else 0) + Closers(s[1..])
  }

  /** Tags opened minus tags closed: every `<` opens a tag unless it starts `</`. */
  function Nesting(s: string): int
  {
    Count('<', s) - 2 * Closers(s)
  }

  /** The text ends in a `<` that the next text could turn into `</`. */
  predicate Dangles(s: string)
  {
    |s| > 0 && s[|s| - 1] == '<'
  }

  /** What `starttag` returns: one opening tag and nothing else. */
  predicate OneOpenTag(t: string)
  {
    Count('<', t) == 1 && Closers(t) == 0 && |t| > 0 && t[|t| - 1] == '>'
  }

  /** The host's `starttag` renders exactly one opening tag for any arguments. */
  ghost predicate OpensOneTag(startTag: StartTag)
  {
    forall n, name, attrs :: OneOpenTag(startTag(n, name, attrs))
  }

  lemma {:induction false} ClosersConcat(a: string, b: string)
    requires !Dangles(a)
    ensures Closers(a + b) == Closers(a) + Closers(b)
  {
    if a == [] {
      assert a + b == b;
    } else if |a| == 1 {
      assert (a + b)[1..] == b;
    } else {
      assert (a + b)[0] == a[0] && (a + b)[1] == a[1];
      assert (a + b)[1..] == a[1..] + b;
      assert a[1..][|a[1..]| - 1] == a[|a| - 1];
      ClosersConcat(a[1..], b);
    }
  }

  lemma {:induction false} ClosersBelowOpeners(s: string)
    ensures Closers(s) <= Count('<', s)
  {
    if |s| >= 2 {
      ClosersBelowOpeners(s[1..]);
    }
  }

  lemma NestingConcat(a: string, b: string)
    requires !Dangles(a)
    ensures Nesting(a + b) == Nesting(a) + Nesting(b)
  {
    ClosersConcat(a, b);
    CountConcat('<', a, b);
  }

  lemma NotDanglesConcat(a: string, b: string)
    requires !Dangles(a) && !Dangles(b)
    ensures !Dangles(a + b)
  {
    if b == [] {
      assert a + b == a;
    } else {
      assert (a + b)[|a + b| - 1] == b[|b| - 1];
    }
  }

  /** Text without `<` opens and closes nothing. */
  lemma PlainText(s: string)
    requires '<' !in s
    ensures Nesting(s) == 0 && !Dangles(s)
  {
    CountAbsent('<', s);
    ClosersBelowOpeners(s);
  }

  lemma AnchorOpenLiteral()
    ensures Nesting("<a href=#") == 1 && !Dangles("<a href=#")
  {
  }

  lemma SubOpenLiteral()
    ensures Nesting("><sub>") == 1 && !Dangles("><sub>")
  {
  }

  lemma MarkerCloseNesting()
    ensures Nesting("</sub></a>") == -2 && !Dangles("</sub></a>")
  {
  }

  lemma AnchorCloseLiteral()
    ensures Nesting("</a>") == -1 && !Dangles("</a>")
  {
  }

  lemma CommaLiteral()
    ensures Nesting(",") == 0 && !Dangles(",")
  {
  }

  /** A marker opens and closes its anchor and its subscript. */
  lemma HtmlMarkerNesting(ref: string, i: nat)
    requires '<' !in ref
    ensures Nesting(HtmlMarker(ref, i)) == 0 && !Dangles(HtmlMarker(ref, i))
  {
    var d := NatToString(i);
    DigitsFree(i, '<');
    PlainText(ref);
    PlainText(d);
    AnchorOpenLiteral();
    SubOpenLiteral();
    MarkerCloseNesting();
    var p1 := "<a href=#" + ref;
    var p2 := p1 + "><sub>";
    var p3 := p2 + d;
    NestingConcat("<a href=#", ref);
    NotDanglesConcat("<a href=#", ref);
    NestingConcat(p1, "><sub>");
    NotDanglesConcat(p1, "><sub>");
    NestingConcat(p2, d);
    NotDanglesConcat(p2, d);
    NestingConcat(p3, "</sub></a>");
    NotDanglesConcat(p3, "</sub></a>");
  }

  lemma CommaSeparated(a: string, b: string)
    requires !Dangles(a) && !Dangles(b)
    ensures Nesting(a + "," + b) == Nesting(a) + Nesting(b) && !Dangles(a + "," + b)
  {
    CommaLiteral();
    NestingConcat(a, ",");
    NotDanglesConcat(a, ",");
    NestingConcat(a + ",", b);
    NotDanglesConcat(a + ",", b);
  }

  /** Parts that each close what they open still do so when joined by commas. */
  lemma {:induction false} NestingJoin(parts: seq<string>)
    requires forall k :: 0 <= k < |parts| ==> Nesting(parts[k]) == 0 && !Dangles(parts[k])
    ensures Nesting(Join(",", parts)) == 0 && !Dangles(Join(",", parts))
  {
    if |parts| == 0 {
      PlainText("");
    } else if |parts| > 1 {
      NestingJoin(parts[1..]);
      CommaSeparated(parts[0], Join(",", parts[1..]));
    }
  }

  /** As written, the depart closes one tag with exactly one backref and is otherwise
      balanced on its own, so it never closes the anchor of a count other than one. */
  lemma DepartBacklinkHtmlNesting(node: Node)
    requires forall k :: 0 <= k < |node.backrefs| ==> '<' !in node.backrefs[k]
    ensures Nesting(DepartBacklinkHtml(node)) == if |node.backrefs| == 1 then -1 else 0
    ensures !Dangles(DepartBacklinkHtml(node))
  {
    AnchorCloseLiteral();
    if |node.backrefs| > 1 {
      var ms := HtmlMarkers(node.backrefs, 0);
      HtmlMarkersAt(node.backrefs, 0);
      forall k | 0 <= k < |ms|
        ensures Nesting(ms[k]) == 0 && !Dangles(ms[k])
      {
        HtmlMarkerNesting(node.backrefs[k], k);
      }
      NestingJoin(ms);
    } else if |node.backrefs| == 0 {
      PlainText("");
    }
  }

  /** The corrected depart closes exactly one tag: the visit's anchor. */
  lemma ClosedDepartNesting(node: Node)
    requires forall k :: 0 <= k < |node.backrefs| ==> '<' !in node.backrefs[k]
    ensures Nesting(DepartBacklinkHtmlClosed(node)) == -1
  {
    var rest := if |node.backrefs| == 1 then "" else DepartBacklinkHtml(node);
    DepartBacklinkHtmlNesting(node);
    PlainText("");
    AnchorCloseLiteral();
    NestingConcat("</a>", rest);
  }

  lemma VisitOpensOneTag(node: Node, startTag: StartTag)
    requires OpensOneTag(startTag)
    ensures Nesting(VisitBacklinkHtml(node, startTag)) == 1 && !Dangles(VisitBacklinkHtml(node, startTag))
  {
    assert OneOpenTag(VisitBacklinkHtml(node, startTag));
  }

  /** A backlink's HTML around content that closes what it opens: the corrected
      rendering is balanced for every backref count, while the written visit and
      depart leave exactly one anchor open unless there is exactly one backref. */
  lemma BacklinkHtmlNesting(node: Node, startTag: StartTag, content: string)
    requires OpensOneTag(startTag)
    requires forall k :: 0 <= k < |node.backrefs| ==> '<' !in node.backrefs[k]
    requires Nesting(content) == 0 && !Dangles(content)
    ensures Nesting(RenderBacklinkHtml(node, startTag, content)) == 0
    ensures Nesting(VisitBacklinkHtml(node, startTag) + content + DepartBacklinkHtml(node))
         == if |node.backrefs| == 1 then 0 else 1
  {
    var v := VisitBacklinkHtml(node, startTag);
    var d := DepartBacklinkHtml(node);
    var c := DepartBacklinkHtmlClosed(node);
    VisitOpensOneTag(node, startTag);
    DepartBacklinkHtmlNesting(node);
    ClosedDepartNesting(node);
    NestingConcat(v, content);
    NotDanglesConcat(v, content);
    NestingConcat(v + content, d);
    NestingConcat(v + content, c);
  }

  /** `curfilestack[-1] + ':' + id`, escaped: the LaTeX label of an id. */
  function Label(escape: Escape, curfile: string, id: string): string
  {
    escape(curfile + ":" + id)
  }

  const Hyperlink: string := "\\hyperlink"
  const Hypertarget: string := "\\hypertarget"

  /** `visit_mutual_ref_node_latex`, which `setup` installs as the LaTeX visit of
      `id_reference` nodes and the backlink visit reuses: a link to `refid` wrapped around
      a target for `ids[0]`; `None` where reading `refid` raises `KeyError`. */
  function VisitMutualRefLatex(node: Node, escape: Escape, curfile: string): (r: Option<string>)
    requires |node.ids| > 0
    ensures r.Some? <==> node.refid.Some?
    ensures r.Some? ==> Hyperlink + "{" + Label(escape, curfile, node.refid.value) + "}{" <= r.value
    ensures var open := Hypertarget + "{" + Label(escape, curfile, node.ids[0]) + "}{";
      r.Some? ==> |open| <= |r.value| && r.value[|r.value| - |open|..] == open
  {
    match node.refid
    case None => None
    case Some(refid) =>
      Some(Hyperlink + "{" + Label(escape, curfile, refid) + "}{"
           + Hypertarget + "{" + Label(escape, curfile, node.ids[0]) + "}{")
  }

  /** `depart_mutual_ref_node_latex`: closes the link's and the target's groups. */
  function DepartMutualRefLatex(node: Node): (r: string)
    ensures Depth(r) == -2
  {
    "}}"
  }

  /** `visit_backlink_node_latex`: with one backref, the mutual-reference visit with
      `refid` set to it; otherwise an open hypertarget. Either way the text ends by
      opening the target for the node's own id, and it starts with a link exactly when
      there is one backref. */
  function VisitBacklinkLatex(node: Node, escape: Escape, curfile: string): (r: string)
    requires |node.ids| > 0
    ensures var open := Hypertarget + "{" + Label(escape, curfile, node.ids[0]) + "}{";
      |open| <= |r| && r[|r| - |open|..] == open
    ensures |node.backrefs| == 1 <==> Hyperlink <= r
    ensures |node.backrefs| == 1 ==> Hyperlink + "{" + Label(escape, curfile, node.backrefs[0]) + "}{" <= r
  {
    var open := Hypertarget + "{" + Label(escape, curfile, node.ids[0]) + "}{";
    if |node.backrefs| == 1 then
      var link := Hyperlink + "{" + Label(escape, curfile, node.backrefs[0]) + "}{";
      assert link + open == Hyperlink + ("{" + Label(escape, curfile, node.backrefs[0]) + "}{" + open);
      VisitMutualRefLatex(node.(refid := Some(node.backrefs[0])), escape, curfile).value
    else
      assert open[6] == 't' != Hyperlink[6];
      open
  }

  /** One numbered link of the subscript: `\hyperlink{label}{i}`. */
  function LatexLink(escape: Escape, curfile: string, ref: string, i: nat): string
  {
    Hyperlink + "{" + Label(escape, curfile, ref) + "}{" + NatToString(i) + "}"
  }

  function LatexLinks(escape: Escape, curfile: string, refs: seq<string>, start: nat): seq<string>
  {
    if refs == [] then [] else [LatexLink(escape, curfile, refs[0], start)] + LatexLinks(escape, curfile, refs[1..], start + 1)
  }

  /** `depart_backlink_node_latex`: with one backref it closes the link and target;
      otherwise it closes the target and appends a subscript of numbered links. */
  function DepartBacklinkLatex(node: Node, escape: Escape, curfile: string): (r: string)
    ensures |node.backrefs| == 1 ==> r == "}}"
    ensures |node.backrefs| != 1 ==> r == "}_{" + Join(",", LatexLinks(escape, curfile, node.backrefs, 0)) + "}"
  {
    if |node.backrefs| == 1 then DepartMutualRefLatex(node)
    else "}_{" + Join(",", LatexLinks(escape, curfile, node.backrefs, 0)) + "}"
  }

  /** Braces opened minus braces closed. */
  function Depth(s: string): int
  {
    Count('{', s) - Count('}', s)
  }

  lemma DepthConcat(a: string, b: string)
    ensures Depth(a + b) == Depth(a) + Depth(b)
  {
    CountConcat('{', a, b);
    CountConcat('}', a, b);
  }

  /** The labels of `ids` are brace-balanced. The host's escaper wraps its argument in
      `\detokenize{...}`, which adds one balanced pair (`DetokenizeKeepsDepth`). */
  predicate LabelsBalanced(escape: Escape, curfile: string, ids: seq<string>)
  {
    forall k :: 0 <= k < |ids| ==> Depth(Label(escape, curfile, ids[k])) == 0
  }

  lemma DetokenizeKeepsDepth(s: string)
    ensures Depth("\\detokenize{" + s + "}") == Depth(s)
  {
    DepthConcat("\\detokenize{" + s, "}");
    DepthConcat("\\detokenize{", s);
  }

  lemma HyperlinkDepth()
    ensures Depth(Hyperlink) == 0
  {
  }

  lemma HypertargetDepth()
    ensures Depth(Hypertarget) == 0
  {
  }

  /** The two command names hold no brace. */
  lemma {:induction false} CommandsInert()
    ensures Depth(Hyperlink) == 0 && Depth(Hypertarget) == 0
  {
    HyperlinkDepth();
    HypertargetDepth();
  }

  lemma DigitsInert(i: nat)
    ensures Depth(NatToString(i)) == 0
  {
    var d := NatToString(i);
    DigitsFree(i, '{');
    DigitsFree(i, '}');
    CountAbsent('{', d);
    CountAbsent('}', d);
  }

  lemma CountTwoArguments(cmd: string, a: string, b: string, c: char)
    ensures Count(c, cmd + "{" + a + "}{" + b + "}")
         == Count(c, cmd) + Count(c, "{") + Count(c, a) + Count(c, "}{") + Count(c, b) + Count(c, "}")
  {
    CountConcat5(c, cmd + "{", a, "}{", b, "}");
    CountConcat(c, cmd, "{");
  }

  /** A balanced command applied to two balanced arguments, `cmd{a}{b}`, is balanced. */
  lemma TwoArgumentDepth(cmd: string, a: string, b: string)
    requires Depth(cmd) == 0 && Depth(a) == 0 && Depth(b) == 0
    ensures Depth(cmd + "{" + a + "}{" + b + "}") == 0
  {
    CountTwoArguments(cmd, a, b, '{');
    CountTwoArguments(cmd, a, b, '}');
  }

  lemma LatexLinkDepth(escape: Escape, curfile: string, ref: string, i: nat)
    requires Depth(Label(escape, curfile, ref)) == 0
    ensures Depth(LatexLink(escape, curfile, ref, i)) == 0
  {
    DigitsInert(i);
    CommandsInert();
    TwoArgumentDepth(Hyperlink, Label(escape, curfile, ref), NatToString(i));
  }

  /** Link `i` of `enumerate(refs, start)` points at the `i`-th backref and shows its index. */
  lemma {:induction false} LatexLinksAt(escape: Escape, curfile: string, refs: seq<string>, start: nat)
    ensures |LatexLinks(escape, curfile, refs, start)| == |refs|
    ensures forall i :: 0 <= i < |refs| ==>
      LatexLinks(escape, curfile, refs, start)[i] == LatexLink(escape, curfile, refs[i], start + i)
  {
    if refs != [] {
      LatexLinksAt(escape, curfile, refs[1..], start + 1);
    }
  }

  /** For a count other than one, the depart closes the target and emits a subscript
      holding one link per backref, in order: link `i` is `\hyperlink{label of
      backrefs[i]}{i}`. */
  lemma DepartBacklinkLatexLinks(node: Node, escape: Escape, curfile: string)
    requires |node.backrefs| != 1
    ensures var links := LatexLinks(escape, curfile, node.backrefs, 0);
      DepartBacklinkLatex(node, escape, curfile) == "}_{" + Join(",", links) + "}"
      && |links| == |node.backrefs|
      && forall i :: 0 <= i < |links| ==>
           links[i] == Hyperlink + "{" + Label(escape, curfile, node.backrefs[i]) + "}{" + NatToString(i) + "}"
  {
    LatexLinksAt(escape, curfile, node.backrefs, 0);
  }

  lemma {:induction false} DepthJoin(parts: seq<string>)
    requires forall k :: 0 <= k < |parts| ==> Depth(parts[k]) == 0
    ensures Depth(Join(",", parts)) == 0
  {
    if |parts| > 1 {
      DepthJoin(parts[1..]);
      DepthConcat(parts[0] + ",", Join(",", parts[1..]));
      DepthConcat(parts[0], ",");
    }
  }

  /** The one-backref visit opens two groups: the link's and the target's. */
  lemma VisitOneDepth(target: string, own: string)
    requires Depth(target) == 0 && Depth(own) == 0
    ensures Depth(Hyperlink + "{" + target + "}{" + Hypertarget + "{" + own + "}{") == 2
  {
    CommandsInert();
    var left := Hyperlink + "{" + target + "}{";
    DepthConcat(Hyperlink + "{" + target, "}{");
    DepthConcat(Hyperlink + "{", target);
    DepthConcat(Hyperlink, "{");
    assert Depth(left) == 1;
    DepthConcat(left + Hypertarget + "{" + own, "}{");
    DepthConcat(left + Hypertarget + "{", own);
    DepthConcat(left + Hypertarget, "{");
    DepthConcat(left, Hypertarget);
  }

  /** The target-only visit opens one group. */
  lemma VisitManyDepth(own: string)
    requires Depth(own) == 0
    ensures Depth(Hypertarget + "{" + own + "}{") == 1
  {
    CommandsInert();
    DepthConcat(Hypertarget + "{" + own, "}{");
    DepthConcat(Hypertarget + "{", own);
    DepthConcat(Hypertarget, "{");
  }

  /** The subscript of links closes the target's group and is balanced itself. */
  lemma DepartManyDepth(escape: Escape, curfile: string, refs: seq<string>)
    requires LabelsBalanced(escape, curfile, refs)
    ensures Depth("}_{" + Join(",", LatexLinks(escape, curfile, refs, 0)) + "}") == -1
  {
    var links := LatexLinks(escape, curfile, refs, 0);
    LatexLinksAt(escape, curfile, refs, 0);
    forall k | 0 <= k < |links|
      ensures Depth(links[k]) == 0
    {
      LatexLinkDepth(escape, curfile, refs[k], k);
    }
    DepthJoin(links);
    var j := Join(",", links);
    DepthConcat("}_{" + j, "}");
    DepthConcat("}_{", j);
  }

  /** The LaTeX output of a backlink is balanced when its labels are: whatever the
      visit opens, the depart closes, for every backref count. */
  lemma LatexBacklinkBalanced(node: Node, escape: Escape, curfile: string)
    requires |node.ids| > 0 && Depth(Label(escape, curfile, node.ids[0])) == 0
    requires LabelsBalanced(escape, curfile, node.backrefs)
    ensures Depth(VisitBacklinkLatex(node, escape, curfile)) + Depth(DepartBacklinkLatex(node, escape, curfile)) == 0
  {
    var refs := node.backrefs;
    var own := Label(escape, curfile, node.ids[0]);
    if |refs| == 1 {
      VisitOneDepth(Label(escape, curfile, refs[0]), own);
    } else {
      VisitManyDepth(own);
      DepartManyDepth(escape, curfile, refs);
    }
  }

  /** The mutual-reference visit and depart are balanced whenever the visit succeeds
      and its two labels are. */
  lemma LatexMutualRefBalanced(node: Node, escape: Escape, curfile: string)
    requires |node.ids| > 0 && node.refid.Some?
    requires Depth(Label(escape, curfile, node.refid.value)) == 0
    requires Depth(Label(escape, curfile, node.ids[0])) == 0
    ensures Depth(VisitMutualRefLatex(node, escape, curfile).value) + Depth(DepartMutualRefLatex(node)) == 0
  {
    VisitOneDepth(Label(escape, curfile, node.refid.value), Label(escape, curfile, node.ids[0]));
  }
}

=== FILE: roles.dfy ===
/** The `mref`, `target` and `backlink` roles: split the shorthand, register the
    signature with the domain and build the node that carries the anchor. */
module Roles {
  import opened Outcomes
  import opened Strings
  import opened Shorthand
  import opened Nodes
  import opened Registry

  /** What a role returns: its single node, and the domain data after registration. */
  datatype RoleOutput = RoleOutput(node: Node, store: Store)

  /** `MutualReference.run`: a `mutual_ref` node with `ids=[anchor]` and the display
      text as text and title, or `None` when the shorthand does not split. */
  function MutualReferenceRun(reg: Store, docname: string, text: string): (r: Option<RoleOutput>)
    ensures r.Some? <==> Count('<', text) == 1
    ensures r.Some? ==> |r.value.store| == |reg| + 1 && r.value.store[..|reg|] == reg
    ensures r.Some? ==>
      var e := r.value.store[|reg|];
      var n := r.value.node;
      && n.text + "<" + e.dispname == RemoveAll(text, '>')
      && e.typ == MutualCode && e.docname == docname
      && n == Node(MutualRef, n.text, [e.anchor], None, None, None, Some(n.text), [], [])
  {
    match SplitShorthand(text)
    case None => None
    case Some((display, signature)) =>
      var added := AddMutualReference(reg, docname, signature);
      Some(RoleOutput(Node(MutualRef, display, [added.anchor], None, None, None, Some(display), [], []), added.store))
  }

  function TargetKind(role: TargetRole): Kind
  {
    match role
    case LooseRef => ReferenceTarget
    case BackLink => Backlink
  }

  /** `Target.run` for `ReferenceTarget` and `BackLink`: a node of the role's class with
      `refid=anchor`, `ids=[anchor]` and the display text as text and title. */
  function TargetRun(reg: Store, docname: string, text: string, role: TargetRole): (r: Option<RoleOutput>)
    ensures r.Some? <==> Count('<', text) == 1
    ensures r.Some? ==> |r.value.store| == |reg| + 1 && r.value.store[..|reg|] == reg
    ensures r.Some? ==>
      var e := r.value.store[|reg|];
      var n := r.value.node;
      && n.text + "<" + e.dispname == RemoveAll(text, '>')
      && e.typ == Code(role) && e.docname == docname
      && n == Node(TargetKind(role), n.text, [e.anchor], Some(e.anchor), None, None, Some(n.text), [], [])
  {
    match SplitShorthand(text)
    case None => None
    case Some((display, signature)) =>
      var added := AddReferenceTarget(reg, docname, signature, role);
      Some(RoleOutput(Node(TargetKind(role), display, [added.anchor], Some(added.anchor), None, None, Some(display), [], []), added.store))
  }
}

=== FILE: shorthand.dfy ===
/** The `Text<signature>` shorthand used by the `mref`, `target` and `backlink` roles:
    every `>` is dropped, then the text must split on `<` into exactly two parts. */
module Shorthand {
  import opened Outcomes
  import opened Strings

  /** Display text and signature of a role's content, or `None` where the tuple
      unpacking `text, signature = ...split('<')` raises (no `<`, or more than one). */
  function SplitShorthand(text: string): (r: Option<(string, string)>)
    ensures r.Some? <==> Count('<', text) == 1
    ensures r.Some? ==> '<' !in r.value.0 && '>' !in r.value.0
    ensures r.Some? ==> '<' !in r.value.1 && '>' !in r.value.1
    ensures r.Some? ==> r.value.0 + "<" + r.value.1 == RemoveAll(text, '>')
  {
    var stripped := RemoveAll(text, '>');
    var parts := Split(stripped, '<');
    JoinSplit(stripped, '<');
    PartsFree(stripped, '<', '>');
    if |parts| == 2 then
      assert Join("<", parts) == parts[0] + "<" + parts[1];
      Some((parts[0], parts[1]))
    else None
  }

  /** Parts of a split are pieces of the original, so they miss whatever it misses. */
  lemma {:induction false} PartsFree(s: string, c: char, d: char)
    requires d !in s
    ensures forall i :: 0 <= i < |Split(s, c)| ==> d !in Split(s, c)[i]
  {
    if s != [] {
      PartsFree(s[1..], c, d);
    }
  }

  /** Writing a display text and a signature in shorthand and splitting it gives them back. */
  lemma ShorthandRoundTrip(display: string, signature: string)
    requires '<' !in display && '>' !in display
    requires '<' !in signature && '>' !in signature
    ensures SplitShorthand(display + "<" + signature) == Some((display, signature))
  {
    var text := display + "<" + signature;
    NoCloseRemoved(text);
    SplitAround(display, '<', signature);
    SplitNone(display, '<');
    SplitNone(signature, '<');
  }

  lemma {:induction false} NoCloseRemoved(s: string)
    requires '>' !in s
    ensures RemoveAll(s, '>') == s
  {
    if s != [] {
      NoCloseRemoved(s[1..]);
      assert s == [s[0]] + s[1..];
    }
  }
}

=== FILE: strings.dfy ===
/** String helpers with the semantics of the Python built-ins the extension uses:
    `str.replace(c, '')`, `str.split(c)`, `sep.join(parts)`, `str(n)` and `str.lower()`. */
module Strings {

  /** Number of occurrences of `c` in `s`. */
  function Count(c: char, s: string): nat
  {
    if s == [] then 0 else (if s[0] == c then 1 else 0) + Count(c, s[1..])
  }

  lemma {:induction false} CountConcat(c: char, a: string, b: string)
    ensures Count(c, a + b) == Count(c, a) + Count(c, b)
  {
    if a == [] {
      assert a + b == b;
    } else {
      assert (a + b)[0] == a[0];
      assert (a + b)[1..] == a[1..] + b;
      CountConcat(c, a[1..], b);
    }
  }

  lemma {:induction false} CountAbsent(c: char, s: string)
    ensures c !in s <==> Count(c, s) == 0
  {
    if s != [] {
      CountAbsent(c, s[1..]);
      assert s == [s[0]] + s[1..];
    }
  }

  /** `CountConcat` over a five-piece concatenation, as rendered markup is built. */
  lemma CountConcat5(c: char, a: string, b: string, d: string, e: string, f: string)
    ensures Count(c, a + b + d + e + f) == Count(c, a) + Count(c, b) + Count(c, d) + Count(c, e) + Count(c, f)
  {
    CountConcat(c, a + b + d + e, f);
    CountConcat(c, a + b + d, e);
    CountConcat(c, a + b, d);
    CountConcat(c, a, b);
  }

  /** `s.replace(c, '')`: every occurrence of `c` removed, everything else kept in order. */
  function RemoveAll(s: string, c: char): (r: string)
    ensures c !in r
    ensures |r| == |s| - Count(c, s)
    ensures forall d {:trigger Count(d, s)} :: d != c ==> Count(d, r) == Count(d, s)
  {
    if s == [] then []
    else if s[0] == c then RemoveAll(s[1..], c)
    else [s[0]] + RemoveAll(s[1..], c)
  }

  /** `sep.join(parts)`. */
  function Join(sep: string, parts: seq<string>): string
  {
    if |parts| == 0 then ""
    else if |parts| == 1 then parts[0]
    else parts[0] + sep + Join(sep, parts[1..])
  }

  /** `s.split(c)` for a one-character separator: always at least one part,
      one more part than there are separators, and no part holds the separator. */
  function Split(s: string, c: char): (parts: seq<string>)
    ensures |parts| == Count(c, s) + 1
    ensures forall i :: 0 <= i < |parts| ==> c !in parts[i]
  {
    if s == [] then [""]
    else if s[0] == c then [""] + Split(s[1..], c)
    else
      var rest := Split(s[1..], c);
      [[s[0]] + rest[0]] + rest[1..]
  }

  /** `s.split(c)[-1]`: the text after the last `c`, or all of `s` when there is none. */
  function LastPart(s: string, c: char): (r: string)
    ensures c !in r
  {
    var parts := Split(s, c);
    parts[|parts| - 1]
  }

  lemma JoinCons(sep: string, p: string, rest: seq<string>)
    requires |rest| >= 1
    ensures Join(sep, [p] + rest) == p + sep + Join(sep, rest)
  {
    assert ([p] + rest)[1..] == rest;
  }

  /** Growing the first part grows the joined string at the front. */
  lemma JoinExtendFirst(sep: string, x: char, rest: seq<string>)
    requires |rest| >= 1
    ensures Join(sep, [[x] + rest[0]] + rest[1..]) == [x] + Join(sep, rest)
  {
    if |rest| > 1 {
      JoinCons(sep, [x] + rest[0], rest[1..]);
      JoinCons(sep, rest[0], rest[1..]);
      assert rest == [rest[0]] + rest[1..];
    } else {
      assert rest[1..] == [];
    }
  }

  /** Joining the parts of a split with the separator gives back the original string. */
  lemma {:induction false} JoinSplit(s: string, c: char)
    ensures Join([c], Split(s, c)) == s
  {
    if s != [] {
      JoinSplit(s[1..], c);
      var rest := Split(s[1..], c);
      assert s == [s[0]] + s[1..];
      if s[0] == c {
        JoinCons([c], "", rest);
      } else {
        JoinExtendFirst([c], s[0], rest);
      }
    }
  }

  /** Splitting around one occurrence of the separator splits both sides independently. */
  lemma {:induction false} SplitAround(x: string, c: char, y: string)
    ensures Split(x + [c] + y, c) == Split(x, c) + Split(y, c)
  {
    var s := x + [c] + y;
    if x == [] {
      assert s == [c] + y;
      assert s[1..] == y;
    } else {
      assert s[0] == x[0];
      assert s[1..] == x[1..] + [c] + y;
      SplitAround(x[1..], c, y);
      if x[0] == c {
        SplitSepStep(x, c, y);
      } else {
        SplitStep(x, c, y);
      }
    }
  }

  lemma {:induction false} SplitSepStep(x: string, c: char, y: string)
    requires x != [] && x[0] == c
    requires Split(x[1..] + [c] + y, c) == Split(x[1..], c) + Split(y, c)
    ensures Split(x + [c] + y, c) == Split(x, c) + Split(y, c)
  {
    var s := x + [c] + y;
    assert s[0] == c && s[1..] == x[1..] + [c] + y;
    assert Split(s, c) == [""] + (Split(x[1..], c) + Split(y, c));
    assert Split(x, c) == [""] + Split(x[1..], c);
    Assoc([""], Split(x[1..], c), Split(y, c));
  }

  lemma {:induction false} SplitStep(x: string, c: char, y: string)
    requires x != [] && x[0] != c
    requires Split(x[1..] + [c] + y, c) == Split(x[1..], c) + Split(y, c)
    ensures Split(x + [c] + y, c) == Split(x, c) + Split(y, c)
  {
    var s := x + [c] + y;
    var sx := Split(x[1..], c);
    var sy := Split(y, c);
    var h := [x[0]] + sx[0];
    assert Split(s, c) == [h] + (sx[1..] + sy) by {
      assert s[0] == x[0] && s[0] != c;
      assert s[1..] == x[1..] + [c] + y;
      SplitCons(s, c);
      TailOfConcat(sx, sy);
    }
    assert Split(x, c) == [h] + sx[1..] by {
      SplitCons(x, c);
    }
    Assoc([h], sx[1..], sy);
  }

  lemma {:induction false} Assoc<T>(a: seq<T>, b: seq<T>, d: seq<T>)
    ensures a + (b + d) == (a + b) + d
  {
  }

  lemma {:induction false} SplitCons(s: string, c: char)
    requires s != [] && s[0] != c
    ensures Split(s, c) == [[s[0]] + Split(s[1..], c)[0]] + Split(s[1..], c)[1..]
  {
  }

  lemma {:induction false} TailOfConcat<T>(a: seq<T>, b: seq<T>)
    requires a != []
    ensures (a + b)[0] == a[0] && (a + b)[1..] == a[1..] + b
  {
  }

  /** A string free of the separator splits into itself alone. */
  lemma {:induction false} SplitNone(s: string, c: char)
    requires c !in s
    ensures Split(s, c) == [s]
  {
    if s != [] {
      SplitNone(s[1..], c);
      assert s == [s[0]] + s[1..];
    }
  }

  /** The text after the last separator of `u + [c] + t` is `t` when `t` has no separator. */
  lemma LastPartAfter(u: string, c: char, t: string)
    requires c !in t
    ensures LastPart(u + [c] + t, c) == t
  {
    SplitAround(u, c, t);
    SplitNone(t, c);
  }

  /** Occurrences of `c` over all of `parts`. */
  function CountAll(c: char, parts: seq<string>): nat
  {
    if parts == [] then 0 else Count(c, parts[0]) + CountAll(c, parts[1..])
  }

  /** Joining adds one separator between each two neighbouring parts. */
  lemma {:induction false} CountJoin(c: char, sep: string, parts: seq<string>)
    requires |parts| > 0
    ensures Count(c, Join(sep, parts)) == CountAll(c, parts) + (|parts| - 1) * Count(c, sep)
  {
    if |parts| > 1 {
      CountJoin(c, sep, parts[1..]);
      CountConcat(c, parts[0] + sep, Join(sep, parts[1..]));
      CountConcat(c, parts[0], sep);
    }
  }

  /** The first part starts the joined string. */
  lemma {:induction false} JoinStartsWithFirst(sep: string, parts: seq<string>)
    requires |parts| > 0
    ensures parts[0] <= Join(sep, parts)
  {
    if |parts| > 1 {
      assert Join(sep, parts) == parts[0] + (sep + Join(sep, parts[1..]));
    }
  }

  function DigitChar(d: nat): (r: char)
    requires d < 10
    ensures '0' <= r <= '9'
  {
    ('0' as int + d) as char
  }

  predicate IsDigits(s: string)
  {
    forall i :: 0 <= i < |s| ==> '0' <= s[i] <= '9'
  }

  /** `str(n)` for a non-negative integer: its decimal digits, most significant first. */
  function NatToString(n: nat): (r: string)
    ensures |r| > 0
    ensures IsDigits(r)
  {
    if n < 10 then [DigitChar(n)] else NatToString(n / 10) + [DigitChar(n % 10)]
  }

  /** Reads a string of decimal digits back as a number (the partner of `NatToString`). */
  function ParseDigits(s: string): nat
    requires IsDigits(s)
  {
    if s == [] then 0
    else ParseDigits(s[..|s| - 1]) * 10 + (s[|s| - 1] as int - '0' as int)
  }

  /** `str(n)` is decimal notation: parsing it gives `n` back. */
  lemma {:induction false} NatToStringRoundTrip(n: nat)
    ensures ParseDigits(NatToString(n)) == n
  {
    if n >= 10 {
      NatToStringRoundTrip(n / 10);
      var s := NatToString(n);
      assert s[..|s| - 1] == NatToString(n / 10);
    }
  }

  /** `str(n)` never holds a character outside '0'..'9', in particular no markup. */
  lemma DigitsFree(n: nat, c: char)
    requires !('0' <= c <= '9')
    ensures c !in NatToString(n)
  {
  }

  /** `c.lower()` restricted to ASCII: upper-case letters become lower-case, the rest is kept. */
  function Lower(c: char): (r: char)
    ensures !('A' <= r <= 'Z')
    ensures 'A' <= c <= 'Z' ==> r as int == c as int + 32
    ensures !('A' <= c <= 'Z') ==> r == c
  {
    if 'A' <= c <= 'Z' then (c as int + 32) as char else c
  }
}

=== FILE: xref.dfy ===
/** Cross-reference resolution: `make_id_refnode`, and `resolve_xref` with its
    last-registered-wins lookup over the domain's tuples. */
module Xref {
  import opened Outcomes
  import opened Strings
  import opened Nodes
  import opened Registry

  /** `builder.get_relative_uri(fromdocname, todocname)`, supplied by the host. */
  type RelativeUri = (string, string) -> string

  /** `refuri.split('#')[-1]`: the anchor part of a link. */
  function Fragment(uri: string): (r: string)
    ensures '#' !in r
  {
    LastPart(uri, '#')
  }

  /** The id a reference node designates: its `refid`, else the fragment of its `refuri`. */
  function LinkedId(n: Node): Option<string>
  {
    if n.refid.Some? then n.refid
    else if n.refuri.Some? then Some(Fragment(n.refuri.value))
    else None
  }

  /** The body of `make_id_refnode` (and of Sphinx's `make_refnode`) for a node of
      class `kind`: same document and a non-empty target id give a `refid`, anything
      else a `refuri` built from the relative URI; a non-empty title is kept. */
  function MakeLinkNode(kind: Kind, relUri: RelativeUri, fromdoc: string, todoc: string,
                        targetid: string, child: string, title: string): (r: Node)
    ensures r.kind == kind && r.text == child && r.ids == [] && r.backrefs == []
    ensures r.refid.Some? <==> fromdoc == todoc && targetid != ""
    ensures r.refid.Some? != r.refuri.Some?
    ensures r.refid.Some? ==> r.refid.value == targetid
    ensures fromdoc != todoc && targetid != "" ==> r.refuri == Some(relUri(fromdoc, todoc) + "#" + targetid)
    ensures targetid == "" ==> r.refuri == Some(relUri(fromdoc, todoc))
    ensures targetid != "" && '#' !in targetid ==> LinkedId(r) == Some(targetid)
    ensures r.reftitle.Some? <==> title != ""
    ensures r.reftitle.Some? ==> r.reftitle.value == title
  {
    var base := Node(kind, child, [], None, None, None, None, [], []);
    var uri := relUri(fromdoc, todoc);
    var linked :=
      if fromdoc == todoc && targetid != "" then base.(refid := Some(targetid))
      else if targetid != "" then base.(refuri := Some(uri + "#" + targetid))
      else base.(refuri := Some(uri));
    FragmentAfterHash(uri, targetid);
    if title != "" then linked.(reftitle := Some(title)) else linked
  }

  /** The fragment of `uri + "#" + t` is `t` whenever `t` has no `#` of its own. */
  lemma FragmentAfterHash(uri: string, t: string)
    ensures '#' !in t ==> Fragment(uri + "#" + t) == t
  {
    if '#' !in t {
      LastPartAfter(uri, '#', t);
    }
  }

  /** `make_id_refnode`: the link node of class `id_reference`. */
  function MakeIdRefnode(relUri: RelativeUri, fromdoc: string, todoc: string,
                         targetid: string, child: string, title: string): (r: Node)
    ensures r.kind == IdReference && r.text == child && r.ids == [] && r.backrefs == []
    ensures r.refid.Some? <==> fromdoc == todoc && targetid != ""
    ensures r.refid.Some? != r.refuri.Some?
    ensures r.refid.Some? ==> r.refid.value == targetid
    ensures fromdoc != todoc && targetid != "" ==> r.refuri == Some(relUri(fromdoc, todoc) + "#" + targetid)
    ensures targetid == "" ==> r.refuri == Some(relUri(fromdoc, todoc))
    ensures targetid != "" && '#' !in targetid ==> LinkedId(r) == Some(targetid)
    ensures r.reftitle.Some? <==> title != ""
    ensures r.reftitle.Some? ==> r.reftitle.value == title
  {
    MakeLinkNode(IdReference, relUri, fromdoc, todoc, targetid, child, title)
  }

  /** A tuple `resolve_xref` may answer with: the signature matches and it is not `mutual`. */
  predicate Visible(e: Entry, target: string)
  {
    e.dispname == target && e.typ != MutualCode
  }

  /** The `match` list of `resolve_xref`, in registration order. */
  function Matches(reg: Store, target: string): seq<Entry>
  {
    if reg == [] then []
    else Matches(reg[..|reg| - 1], target) + (if Visible(reg[|reg| - 1], target) then [reg[|reg| - 1]] else [])
  }

  /** The winning declaration, defined independently of the match list: the
      latest-registered visible tuple. */
  function Winner(reg: Store, target: string): (r: Option<nat>)
    ensures r.None? <==> forall i :: 0 <= i < |reg| ==> !Visible(reg[i], target)
    ensures r.Some? ==> r.value < |reg| && Visible(reg[r.value], target)
    ensures r.Some? ==> forall j :: r.value < j < |reg| ==> !Visible(reg[j], target)
  {
    if reg == [] then None
    else if Visible(reg[|reg| - 1], target) then Some(|reg| - 1)
    else
      var r := Winner(reg[..|reg| - 1], target);
      assert forall i :: 0 <= i < |reg| - 1 ==> reg[..|reg| - 1][i] == reg[i];
      r
  }

  /** `match[-1]` is the winning declaration. */
  lemma {:induction false} LastMatchIsWinner(reg: Store, target: string)
    ensures |Matches(reg, target)| == 0 <==> Winner(reg, target).None?
    ensures |Matches(reg, target)| > 0 ==>
      Matches(reg, target)[|Matches(reg, target)| - 1] == reg[Winner(reg, target).value]
  {
    if reg != [] {
      LastMatchIsWinner(reg[..|reg| - 1], target);
    }
  }

  const BacklinkCode: string := "backlink"

  /** `resolve_xref`: `None` when no visible tuple carries the signature; otherwise a
      link to the latest one. A `backlink` target gives an `id_reference` whose ids gain
      `anchor + "-ref" + str(serial)` (`serial` is `env.new_serialno()`); any other
      target gives a plain reference without ids. */
  function ResolveXref(reg: Store, relUri: RelativeUri, fromdoc: string, target: string,
                       child: string, serial: nat): (r: Option<Node>)
    ensures r.None? <==> Winner(reg, target).None?
    ensures r.Some? ==>
      var e := reg[Winner(reg, target).value];
      var n := r.value;
      && n.kind == (if e.typ == BacklinkCode then IdReference else Reference)
      && n.text == child
      && n.ids == (if e.typ == BacklinkCode then [e.anchor + "-ref" + NatToString(serial)] else [])
      && (n.refid.Some? <==> fromdoc == e.docname && e.anchor != "")
      && (n.refid.Some? != n.refuri.Some?)
      && (n.refid.Some? ==> n.refid.value == e.anchor)
      && (n.refuri.Some? ==> n.refuri.value == relUri(fromdoc, e.docname) + (if e.anchor != "" then "#" + e.anchor else ""))
      && (e.anchor != "" && '#' !in e.anchor ==> LinkedId(n) == Some(e.anchor))
      && n.reftitle == (if e.anchor != "" then Some(e.anchor) else None)
  {
    var matches := Matches(reg, target);
    LastMatchIsWinner(reg, target);
    if |matches| == 0 then None
    else
      var m := matches[|matches| - 1];
      if m.typ == BacklinkCode then
        var node := MakeIdRefnode(relUri, fromdoc, m.docname, m.anchor, child, m.anchor);
        Some(node.(ids := node.ids + [m.anchor + "-ref" + NatToString(serial)]))
      else
        Some(MakeLinkNode(Reference, relUri, fromdoc, m.docname, m.anchor, child, m.anchor))
  }

  /** Tuples that a lookup of `target` cannot see leave its match list as it was. */
  lemma {:induction false} MatchesIgnoreInvisible(reg: Store, later: Store, target: string)
    requires forall i :: 0 <= i < |later| ==> !Visible(later[i], target)
    ensures Matches(reg + later, target) == Matches(reg, target)
  {
    if later == [] {
      assert reg + later == reg;
    } else {
      var s := reg + later;
      var front := later[..|later| - 1];
      assert s[..|s| - 1] == reg + front;
      assert s[|s| - 1] == later[|later| - 1];
      MatchesIgnoreInvisible(reg, front, target);
    }
  }

  /** Registrations a lookup of `target` cannot see (mutual references, other
      signatures) never change how `target` resolves, however many follow. */
  lemma ResolveIgnoresInvisible(reg: Store, later: Store, relUri: RelativeUri, fromdoc: string,
                                target: string, child: string, serial: nat)
    requires forall i :: 0 <= i < |later| ==> !Visible(later[i], target)
    ensures ResolveXref(reg + later, relUri, fromdoc, target, child, serial)
         == ResolveXref(reg, relUri, fromdoc, target, child, serial)
  {
    MatchesIgnoreInvisible(reg, later, target);
  }

  /** Right after a target is registered, its signature resolves to it. */
  lemma NewestTargetResolves(reg: Store, docname: string, signature: string,
                             role: TargetRole, relUri: RelativeUri,
                             fromdoc: string, child: string, serial: nat)
    ensures
      var added := AddReferenceTarget(reg, docname, signature, role);
      var r := ResolveXref(added.store, relUri, fromdoc, signature, child, serial);
      && r.Some?
      && r.value.kind == (if role == BackLink then IdReference else Reference)
      && ('#' !in signature ==> LinkedId(r.value) == Some(added.anchor))
      && (r.value.refid.Some? ==> r.value.refid.value == added.anchor)
      && (r.value.refid.Some? <==> fromdoc == docname)
  {
    var added := AddReferenceTarget(reg, docname, signature, role);
    var s := added.store;
    assert Visible(s[|reg|], signature);
    assert s[..|s| - 1] == reg;
    assert Winner(s, signature) == Some(|reg|);
    assert '#' !in Code(role) + "-";
    assert added.anchor == (Code(role) + "-") + signature;
    assert '#' !in signature ==> '#' !in added.anchor;
  }

  /** Last registration wins: once a target is registered, looking its signature up
      yields that very target, whatever was registered before it and whatever is
      registered after it under other signatures or as mutual references. */
  lemma ResolveFindsNewestTarget(reg: Store, docname: string, signature: string,
                                 role: TargetRole, later: Store, relUri: RelativeUri,
                                 fromdoc: string, child: string, serial: nat)
    requires forall i :: 0 <= i < |later| ==> !Visible(later[i], signature)
    ensures
      var added := AddReferenceTarget(reg, docname, signature, role);
      var r := ResolveXref(added.store + later, relUri, fromdoc, signature, child, serial);
      && r.Some?
      && r.value.kind == (if role == BackLink then IdReference else Reference)
      && ('#' !in signature ==> LinkedId(r.value) == Some(added.anchor))
      && (r.value.refid.Some? ==> r.value.refid.value == added.anchor)
      && (r.value.refid.Some? <==> fromdoc == docname)
  {
    var added := AddReferenceTarget(reg, docname, signature, role);
    NewestTargetResolves(reg, docname, signature, role, relUri, fromdoc, child, serial);
    ResolveIgnoresInvisible(added.store, later, relUri, fromdoc, signature, child, serial);
  }

  /** Mutual references live in the same list but are invisible to lookups: any run of
      `mref` registrations leaves the resolution of every signature unchanged. */
  lemma ResolveIgnoresMutual(reg: Store, mutuals: Store, relUri: RelativeUri, fromdoc: string,
                             target: string, child: string, serial: nat)
    requires forall i :: 0 <= i < |mutuals| ==> mutuals[i].typ == MutualCode
    ensures ResolveXref(reg + mutuals, relUri, fromdoc, target, child, serial)
         == ResolveXref(reg, relUri, fromdoc, target, child, serial)
  {
    ResolveIgnoresInvisible(reg, mutuals, relUri, fromdoc, target, child, serial);
  }
}
